=== FILE: README.md ===
# doublegit, modelled in Dafny

doublegit keeps a mirror of a Git repository and never loses a commit that
was once on a remote branch. Each update cycle does four things:

1. It runs `git fetch --prune --all`.
2. It reads the per-ref lines of the fetch output into three lists: new, changed and removed refs.
3. It records the changes in a SQLite table `refs`. Each row is one period during which a ref pointed at one commit.
4. It keeps every fetched commit reachable from an anchor branch `keep-<sha>`. It then prunes anchors that another anchor already makes redundant.

The repository has two implementations of this cycle. The Python one is
`doublegit.py`; the Rust one is `src/git/mod.rs`. The Rust one also handles
tags: an annotated tag gets a separate `refs/kept-tags/tag-<sha>` ref, which
pruning never touches. It also deletes a target's own keeper when more than
one branch contains the target.

The model is organised by concern:

- `wrappers.dfy`: `Option`, `Result`, and `FirstFailure`. The last one is where a loop that stops at the first failing element stops.
- `fetch_grammar.dfy`: the per-ref line pattern, as a `RefLine` datatype of fields. `Render` writes the fields out; `Scan` finds them, trying the space-free summary alternative before the bracketed one, as the regex engine does.
- `fetch_parse.dfy`: `splitlines`, the marker dispatch, and the parsing loop of `fetch`. The loop is a `method` and is proved equal to a declarative classification.
- `fetch_transcript.dfy`: the fetch transcript of the parsing test.
- `ref_names.dfy`: Python's `split('/', 1)`, and Rust's `parse_remote_ref` and `fullname`.
- `ledger.dfy`: the `refs` table as a sequence of rows in insertion order. It is generic in the key and in the stored data. It covers `UPDATE ... ORDER BY from_date DESC LIMIT 1` closing and `INSERT` opening, and proves the single-open invariant under the hypotheses listed under "## Left out" (each key opened at most once per cycle, a cycle time later than every row, and no key reopened while its row is still open).
- `anchors.dfy`: anchor branches as a set of shas, with ancestry as a partial order. It has both pruning rules and proves retention safety.
- `py_update.dfy`: one Python cycle, with its error paths.
- `rs_update.dfy`: one Rust cycle, with its error paths.
- `rs_trace.dfy`: the four-cycle end-to-end scenario of `tests.py`, run through the Rust cycle.

Processes and clocks are parameters of the model:

- `git fetch` is its stderr text, or `None` when it fails.
- `git rev-parse` is a function from ref names to optional shas.
- `git branch --merged` and `--contains` are read through an ancestry relation `le`.
- `git::is_annotated_tag` is a predicate on shas.
- The time of a cycle is an integer.

Several Python errors can end a cycle: a failed fetch, a `!` line, a ref
without `/`, or a failed `rev-parse`. Each of them is raised before the
first anchor is written and before `commit`, so a failed Python cycle
leaves the ledger and the anchor branches unchanged. It does not leave the
whole mirror unchanged: `git fetch --prune --all` has already run to
completion, so the remote-tracking refs have moved and the pruned ones are
gone. The next fetch does not report those refs again, so their changes
never reach the ledger. For example, ` * [new tag] v1 -> v1` ends the
Python cycle at doublegit.py:129, and the tag `v1` is never recorded.

The Rust cycle runs the ledger changes inside a transaction. When a cycle
fails, the ledger is rolled back, but the branches stay as they were when
the error happened: the deletions the pruning loop made before a failing
keeper deletion are not undone (`Anchors.DeletedBeforeFailure`). Here too the fetch has already moved the
remote-tracking refs, so the rolled-back changes are not reported again.

A failed cycle can therefore break the single-open invariant later.
Suppose a cycle sees branch `b` removed and then fails. The fetch has
already pruned `b`, so the removal is never recorded, and `b` keeps its
open row. If `b` is later created again, the fetch reports it as new,
without a removal, and the next cycle opens a second row for it
(`PyUpdate.NewWhileOpenBreaks`, `RsUpdate.NewWhileOpenBreaks`). The Rust
ledger is keyed by name alone, so a tag and a branch with the same name,
both changed or new in one cycle, also get two open rows
(`RsUpdate.SameNameBreaks`).

One Rust behaviour stands out. Take three targets in the order `c2`, `c3`,
`c1`, where `c1` is an ancestor of both `c2` and `c3`:

- Pruning for `c2` deletes `keep-c1`.
- Pruning for `c1` then finds two branches containing `c1`.
- It tries to delete `keep-c1` again, and that deletion fails.

The cycle then ends with an error and the ledger is rolled back (`Anchors.KeeperAlreadyPruned`).

Even so, every fetched commit stays covered (`Anchors.PruneRsAllCovers`, `RsUpdate.UpdateRetains`).

The tests do not all match the Python code. The end-to-end test expects
`keep-A` to be deleted after the force-push back to `A`. Only the Rust
pruning rule does that; the Python rule keeps it
(`RsTrace.PythonKeepsBothAfterForcePush`). The scenario is therefore proved
against the Rust cycle. The Python model follows `doublegit.py` as written.

## Model

| member | source | states |
|---|---|---|
| FetchGrammar.Scan | doublegit.py:13-14 | a split `Scan` returns is well-formed and renders exactly to the scanned line |
| FetchGrammar.ScanComplete | doublegit.py:13-14 | every line of the pattern's shape is matched; a word split is found as is, and a bracketed split is returned only when no word split exists |
| FetchGrammar.SplitUnique | doublegit.py:13-14 | two splits of one line that use the same summary alternative are equal, so each alternative reads a line in only one way |
| FetchGrammar.ScanNoneIffNoMatch | doublegit.py:13-14 | the pattern fails on a line exactly when no well-formed field split renders to it |
| FetchGrammar.WordAlternativeWins | doublegit.py:13-14 | ` * [a b] -> -> c` fits both alternatives; the word alternative is taken, so the recorded destination is `->` |
| FetchParse.SplitLines | doublegit.py:39 | no line produced by the split holds a `\n` or `\r` |
| FetchParse.SplitJoin | doublegit.py:39 | splitting newline-terminated lines that hold no line break gives those lines back |
| FetchParse.MarkerKind | doublegit.py:46-57 | `*` is new, ` ` and `+` are changed, `-` is removed, `t` is a tag, `!` is a reject; no other character has a kind |
| FetchParse.LineEvent | doublegit.py:13-57 | a line has an event exactly when it matches the pattern; the event's kind is the one the marker column names; its ref is the destination field of the space-free-summary split whenever one renders the line, and of the bracketed split only when none does, as the regex's alternation order decides |
| FetchParse.AmbiguousLineEvent | doublegit.py:13-57 | on ` * [a b] -> -> c` the recorded ref is `->`, the destination of the space-free-summary split, not `c` |
| FetchParse.NoOpLineSkipped | doublegit.py:13-24 | an up-to-date `=` line never matches the pattern, since `=` is outside the marker class |
| FetchParse.FirstReject | doublegit.py:54-55 | the index returned is a reject event with no reject before it; `None` means no reject event at all |
| FetchParse.ClassifyEvents | doublegit.py:38-60 | the parse fails exactly when some line is a reject, and the error names the ref of the first reject line |
| FetchParse.ParseEvents | doublegit.py:38-60 | the loop over line events returns the classification of those events, stopping at the first reject |
| FetchParse.ParseFetchOutput | doublegit.py:35-60 | parsing the stderr text gives the classification of its lines |
| FetchParse.RejectAt | doublegit.py:54-55 | a reject event with none before it decides the parse: it raises with that event's ref |
| FetchParse.PickedMembership | doublegit.py:44-53 | a ref is in the list of a kind exactly when some line reports it with that kind |
| FetchParse.PickedAppend | doublegit.py:38-53 | each list keeps line order: the refs of earlier lines come first |
| FetchParse.IgnoredEvent | doublegit.py:52-60 | an event that is no match, or a tag, changes neither the error nor any returned list |
| FetchParse.IgnoredLine | doublegit.py:40-60 | inserting a line that does not match, or a tag line, anywhere in the output leaves the parse result unchanged |
| FetchTranscript.ProgressSkipped | tests.py:17-23 | the progress and header lines of the transcript yield no event |
| FetchTranscript.OneSpaceBracketNotWord | doublegit.py:13-14 | a bracketed summary with one inner space is not taken by the word alternative when the source does not start with `-` |
| FetchTranscript.NewBranchEvent | tests.py:24 | the `[new branch]` line yields a new-ref event for `origin/master` |
| FetchTranscript.FastForwardEvent | tests.py:25 | the fast-forward line yields a changed-ref event for `origin/devel` |
| FetchTranscript.PrunedEvent | tests.py:26 | the `[deleted]` line yields a removed-ref event for `origin/old` |
| FetchTranscript.ClassifyThree | doublegit.py:38-60 | lines without events followed by a new, a changed and a removed line classify to those three refs |
| FetchTranscript.TranscriptClassified | tests.py:28-31 | the transcript's lines give new `[origin/master]`, changed `[origin/devel]` and removed `[origin/old]` |
| FetchTranscript.TranscriptOutputClassified | tests.py:16-31 | the same result comes from the raw newline-terminated stderr text |
| RefNames.SplitRef | doublegit.py:117 | the split fails exactly when there is no `/`; otherwise the remote holds no `/` and remote, `/`, name rebuild the ref |
| RefNames.SplitJoin | doublegit.py:129 | splitting `remote/name` gives back `(remote, name)` whenever the remote holds no `/` |
| RefNames.OriginPrefix | src/git/mod.rs:22-26 | a ref starts with `origin/` exactly when the text before its first `/` is `origin` |
| RefNames.ParseRemoteRef | src/git/mod.rs:21-29 | parsing succeeds exactly on refs starting with `origin/`, and gives the rest as a branch name; "invalid remote ref" means exactly that there is no `/` |
| RefNames.FullName | src/git/mod.rs:32-38 | a tag's full name is its name; a branch's full name splits into `origin` and its name |
| RefNames.ParseFullName | src/git/mod.rs:21-38 | parsing a branch's full name gives the branch back |
| RefNames.FullNameOfParsed | src/git/mod.rs:21-38 | whatever parses is a branch whose full name is the parsed text |
| RefNames.KeysAgree | src/git/mod.rs:21-29 | for an `origin` ref, Python's split gives `origin` and the same name Rust's parse keeps |
| RefNames.ParseOriginMaster | src/git/mod.rs:149-155 | `origin/master` parses to branch `master` |
| RefNames.ParseUpstreamMaster | src/git/mod.rs:156 | `upstream/master` is rejected as having an invalid remote |
| RefNames.ParseMaster | src/git/mod.rs:157 | `master` is rejected as an invalid remote ref |
| RefNames.ParseNestedName | src/git/mod.rs:27-28 | `origin/feature/x` parses to branch `feature/x`: only the first `/` separates |
| RefNames.FullNameExamples | src/git/mod.rs:160-178 | branch `master` prints as `origin/master`; tag `release` prints as `release` |
| Ledger.Latest | doublegit.py:120-123 | the row the close selects exists exactly when the key has a row, and it is the key's latest row |
| Ledger.LatestUnique | doublegit.py:122-123 | a key has at most one latest row |
| Ledger.LatestIs | doublegit.py:122-123 | `Latest` returns every row meeting the declarative description of latest |
| Ledger.LatestSameShape | doublegit.py:120-123 | which row is latest depends only on keys and start times, so closing rows never changes it |
| Ledger.CloseLatest | doublegit.py:118-126 | one close sets `to` on the key's latest row and on no other row, and keeps keys, start times and data |
| Ledger.CloseAll | doublegit.py:116-126 | the closing loop sets `to` exactly on the latest rows of the closed keys, even when a row was already closed |
| Ledger.OpenAll | doublegit.py:127-136 | the inserting loop keeps the old rows and appends one open row per entry, in order |
| Ledger.Update | doublegit.py:116-136 | a cycle's ledger changes: unclosed keys' rows untouched, closed keys' latest rows ended at `t`, one open row per entry appended |
| Ledger.SingleOpen | doublegit.py:116-136 | when every open row is its key's latest row, a key has at most one open row |
| Ledger.UpdateKeepsOpenIsLatest | doublegit.py:116-136 | a cycle later than every row keeps "every open row is latest" when it opens each key once and closes every reopened key that is open |
| Ledger.OpenTwiceBreaks | doublegit.py:127-136 | opening one key twice in an update leaves the second new row open but not latest |
| Ledger.ReopenWithoutCloseBreaks | doublegit.py:116-136 | opening a key that has an open row, without closing it, leaves that row open but not latest |
| Ledger.UpdateStartsBy | doublegit.py:120-133 | after a cycle at `t` no row starts later than `t` |
| Anchors.CreateAll | doublegit.py:139-141 | after the creation loop, the anchors are the old ones plus one per target |
| Anchors.CreateAllIdempotent | doublegit.py:139-141 | running the creation loop twice gives the same anchors as once |
| Anchors.PrunePy | doublegit.py:144-149 | pruning for `s` removes exactly the anchors strictly below `s` |
| Anchors.PrunePyAll | doublegit.py:143-149 | an anchor survives the pruning loop exactly when it was there and is strictly below none of the targets |
| Anchors.PrunePyKeepsCover | doublegit.py:144-149 | pruning for a covered target keeps every covered commit covered |
| Anchors.PrunePyAllCovers | doublegit.py:143-149 | every commit covered before the pruning loop is still covered after it |
| Anchors.AnchorsPyRetains | doublegit.py:138-149 | after a Python cycle, every target is covered; no anchor appears beyond the old ones and the targets; an old anchor survives exactly when no target strictly contains it; no anchor strictly below a target is left |
| Anchors.PruneRs | src/git/mod.rs:119-136 | Rust pruning for `s` removes exactly the anchors strictly below `s`, then removes `keep-s` when more than one anchor contains `s` and `s` is no annotated tag; it fails exactly when that keeper is already gone |
| Anchors.PruneRsDeletesBelow | src/git/mod.rs:122-135 | Rust pruning for `s` removes only anchors below `s` |
| Anchors.PruneRsKeepsTarget | src/git/mod.rs:128-135 | after Rust pruning for a covered `s`, `s` is still covered by an anchor or a kept tag |
| Anchors.PruneRsKeepsCover | src/git/mod.rs:119-136 | Rust pruning for a covered target keeps every covered commit covered |
| Anchors.PruneRsAll | src/git/mod.rs:118-136 | the Rust loop only removes anchors; an error names a target that is no annotated tag; a loop that runs to the end leaves no anchor strictly below any target |
| Anchors.PruneRsAllLeaves | src/git/mod.rs:118-136 | what the loop leaves. When it runs to the end, no anchor strictly below a target is left, and every other anchor that is no target survives. When it stops, it names a target `s` that is no annotated tag and whose keeper is gone. The deletions already made stay made, for every target up to and including `s`: no anchor strictly below one of them is left, and every other anchor that is none of them survives |
| Anchors.DeletedBeforeFailure | src/git/mod.rs:122-134 | with `x` below `s` and `s` below `y1` and `y2`, pruning for `s` with `keep-s` missing deletes `keep-x` and then fails, leaving `{y1, y2}` |
| Anchors.PruneRsAllCovers | src/git/mod.rs:118-136 | every commit covered before the Rust loop is still covered by anchors and kept tags after it, even when the loop stops at an error |
| Anchors.KeeperAlreadyPruned | src/git/mod.rs:128-135 | with targets `c2`, `c3`, `c1` and `c1` below both others, the loop fails on `keep-c1`, which pruning for `c2` already deleted |
| PyUpdate.Fetch | doublegit.py:27-60 | `FetchFailed` exactly when `git fetch` fails; otherwise it raises exactly when some stderr line is a `!` reject, naming the first such line's ref, and on success each of the new, changed and removed lists holds exactly the refs of the stderr lines of that kind, in the order of the parsing loop |
| PyUpdate.FetchEvents | doublegit.py:38-60 | the read fails exactly when some line is a `!` reject, naming the first one; otherwise each list holds exactly the refs its kind's lines report |
| PyUpdate.CloseKeys | doublegit.py:116-117 | the keys of the closing loop, failing exactly when some ref holds no `/`, at the first such ref |
| PyUpdate.Entries | doublegit.py:127-129 | the inserted keys and shas, failing at the first ref that `rev-parse` cannot resolve or that holds no `/`, in that order of checks |
| PyUpdate.Update | doublegit.py:88-151 | any error leaves the ledger and the anchor branches unchanged; the fetch error happens exactly when `git fetch` fails; success means the fetch output parsed |
| PyUpdate.RejectAborts | doublegit.py:54-55 | a `!` line ends the cycle with that ref's error, leaving the ledger and the anchor branches unchanged |
| PyUpdate.NoRemoteAborts | doublegit.py:116-117 | a removed or changed ref without `/` ends the cycle before the ledger or an anchor is written |
| PyUpdate.UpdateLedger | doublegit.py:115-136 | after a successful cycle, rows of keys no closing ref names are untouched, and one open row per changed or new ref follows, in order |
| PyUpdate.UpdateRetains | doublegit.py:138-149 | after a successful cycle every changed or new ref's commit is covered by an anchor, and every new anchor is a fetched commit |
| PyUpdate.UpdateKeepsSingleOpen | doublegit.py:115-136 | the single-open invariant survives a cycle whose refs are distinct and whose new refs with open rows were also removed |
| PyUpdate.NewWhileOpenBreaks | doublegit.py:116-133 | a cycle that reports a ref as new while its key has an open row, and closes no ref of that key, leaves that row open but no longer latest |
| PyUpdate.SplitInjective | doublegit.py:117 | two refs with `/` that split to the same key are the same ref |
| RsUpdate.Inserts | src/git/mod.rs:91-100 | the inserted rows, one per ref in order with its name, sha and tag flag, failing at the first ref `rev-parse` cannot resolve |
| RsUpdate.Targets | src/git/mod.rs:103-105 | a target is annotated exactly when its ref is a tag and its sha is an annotated tag |
| RsUpdate.CreateRs | src/git/mod.rs:102-116 | annotated tags get kept-tag refs and everything else gets `keep-<sha>` branches; nothing else is created |
| RsUpdate.Update | src/git/mod.rs:41-141 | any error leaves the ledger unchanged; kept-tag refs only accumulate; the fetch error happens exactly when the fetch fails |
| RsUpdate.Apply | src/git/mod.rs:79-138 | after every ref resolved, the only possible error is a missing keeper, and it leaves the ledger unchanged |
| RsUpdate.RevParseAborts | src/git/mod.rs:91-92 | a ref that does not resolve ends the cycle with that error, leaving the ledger, the anchor branches and the kept tags unchanged |
| RsUpdate.UpdateLedger | src/git/mod.rs:78-100 | after a successful cycle, rows of names no removed or changed ref has are untouched, and one open row per changed or new ref follows |
| RsUpdate.UpdateRetains | src/git/mod.rs:102-136 | once all refs resolved, every changed or new ref's commit is covered by an anchor or kept tag, even after a pruning error, and annotated tags are kept |
| RsUpdate.ApplyRetains | src/git/mod.rs:102-136 | the same coverage stated over the resolved rows |
| RsUpdate.UpdateKeepsSingleOpen | src/git/mod.rs:78-100 | the single-open invariant survives a cycle whose names are distinct and whose new names with open rows were also removed |
| RsUpdate.SameNameBreaks | src/git/mod.rs:79-100 | two changed or new refs with one name, such as a tag and a branch, leave the second new row open but not latest |
| RsUpdate.NewWhileOpenBreaks | src/git/mod.rs:79-100 | a cycle that reports a ref as new while its name has an open row, and closes no ref of that name, leaves that row open but no longer latest |
| RsTrace.LeIsPartialOrder | tests.py:82-124 | the scenario's commit graph, with `A` the parent of `B` and of `C`, is a partial order |
| RsTrace.OneRefRun | src/git/mod.rs:79-138 | a cycle with a single changed or new branch opens its row, creates its anchor and prunes for it |
| RsTrace.Run1 | tests.py:81-94 | the first cycle gives the ledger `(br1, 1, open, A)` and anchors `{A}` |
| RsTrace.Run2 | tests.py:96-106 | the second cycle closes `br1` at 3, opens it at `B`, and leaves anchors `{B}` |
| RsTrace.Prune3 | src/git/mod.rs:128-135 | after the force-push back, `keep-A` is deleted because `keep-B` also contains `A` |
| RsTrace.Run3 | tests.py:108-118 | the force-push cycle closes `br1` at 4, opens it at `A`, and leaves anchors `{B}` |
| RsTrace.Run4 | tests.py:120-135 | the last cycle closes `br1` at 6, opens `br2` at `C`, and leaves anchors `{B, C}` |
| RsTrace.Scenario | tests.py:81-135 | the four cycles in sequence end with the ledger and anchors the test expects |
| RsTrace.PythonKeepsBothAfterForcePush | doublegit.py:144-149 | the Python pruning rule keeps `keep-A` after the force-push back, unlike the test's expectation |

## Left out

- Running processes: `git fetch`, `git rev-parse`, `git branch` and `git::is_annotated_tag` are parameters. A failure of `make_branch`, `make_ref`, `delete_branch` for another reason than a missing branch, or `is_annotated_tag` is not modelled. `src/git/git.rs`, which runs these commands in Rust, is not part of this model.
- The Rust fetch result is taken as input (`RsUpdate.RsFetch`). Its parsing lives in `src/git/git.rs`.
- `git branch --merged` output parsing (doublegit.py:74-80) is left out. The model reads each listed line as a bare branch name, so the current-branch `*` marker is not modelled. It also assumes the mirror's only local branches are `keep-*` anchors.
- SQLite: the table is a sequence of rows. Transactions, the connection, table creation and file existence are not modelled.
- Ties in `ORDER BY from_date DESC LIMIT 1` go to the earliest-inserted row. SQL leaves that order open.
- Time is one integer per cycle. Python's `DATETIME()` is read per statement, and Rust formats the date to whole seconds; neither is modelled.
- UTF-8 decoding of git's output, and `strip()` of `rev-parse` output, are not modelled; text is `seq<char>`.
- The repository check (doublegit.py:89-92), `main`, argument parsing and logging are not modelled, because they do no mirror work.
- `src/apis/mod.rs` (the hosting-site API client) is not part of this model.
- Concurrency and crash recovery are not modelled: two cycles on one mirror, or a crash between git writes and `commit`.
- The effect of `git fetch --prune --all` on the mirror's remote-tracking refs is not modelled. The fetch moves and prunes them before any error of the cycle can be raised, so a failed cycle loses the changes it did not record: the next fetch does not report them again.
- Ledger.UpdateKeepsOpenIsLatest: assumes that the cycle opens each key at most once, is later than every row, and closes every key it opens that still has an open row. The source checks none of these. `Ledger.OpenTwiceBreaks` and `Ledger.ReopenWithoutCloseBreaks` show that the invariant fails without the first and the last.
- PyUpdate.UpdateKeepsSingleOpen: assumes distinct changed and new refs, a later time than every row, and that a ref reported new with an open row is also reported removed. The last fails after a failed cycle whose removal was pruned but not recorded (`PyUpdate.NewWhileOpenBreaks`), so the invariant is not promised in general.
- RsUpdate.UpdateKeepsSingleOpen: assumes distinct names among the changed and new refs, a later time than every row, and that a name reported new with an open row is also removed. A tag and a branch with the same name break the first (`RsUpdate.SameNameBreaks`). A rolled-back removal breaks the last (`RsUpdate.NewWhileOpenBreaks`).

=== FILE: anchors.dfy ===
/**
 * The retention anchors of the mirror. After each fetch, every fetched
 * commit gets an anchor so that `git gc` never drops it, and anchors that
 * another anchor already keeps reachable are pruned.
 *
 * A branch `keep-<sha>` always points at `<sha>`, so the set of anchor
 * branches is a set of shas. Git's `branch --merged <sha>` and
 * `branch --contains <sha>` are read through an ancestry relation
 * `le(a, b)`: commit `a` is `b` or an ancestor of `b`. Git's history is a
 * DAG, so `le` is a partial order; the lemmas assume only that.
 *
 * Python (doublegit.py:138-149) creates every anchor, then for each target
 * deletes the branches merged into it except its own keeper. Rust
 * (src/git/mod.rs:102-136) also anchors annotated tags with a separate
 * `refs/kept-tags/tag-<sha>` ref that pruning never lists, and deletes a
 * target's own keeper when more than one branch contains the target.
 */
module Anchors {
  import opened Wrappers

  type Sha = string

  /** `le(a, b)`: commit `a` is reachable from commit `b`. */
  type Ancestry = (Sha, Sha) -> bool

  ghost predicate PartialOrder(le: Ancestry) {
    && (forall a :: le(a, a))
    && (forall a, b :: le(a, b) && le(b, a) ==> a == b)
    && (forall a, b, c :: le(a, b) && le(b, c) ==> le(a, c))
  }

  /** `git branch --merged s`: the branches whose tip is reachable from `s`. */
  function Merged(b: set<Sha>, s: Sha, le: Ancestry): set<Sha> {
    set x | x in b && le(x, s)
  }

  /** `git branch --contains s`: the branches from whose tip `s` is reachable. */
  function Including(b: set<Sha>, s: Sha, le: Ancestry): set<Sha> {
    set x | x in b && le(s, x)
  }

  /** Some ref among `refs` keeps commit `t` reachable. */
  predicate Covers(refs: set<Sha>, t: Sha, le: Ancestry) {
    exists x :: x in refs && le(t, x)
  }

  // ---------------------------------------------------------------------
  // Creation

  /** The creation loop: `git branch -f keep-<sha> <sha>` for every target in turn. */
  function CreateAll(b: set<Sha>, targets: seq<Sha>): (r: set<Sha>)
    ensures forall x :: x in r <==> x in b || x in targets
    decreases |targets|
  {
    if |targets| == 0 then b
    else
      var r := CreateAll(b + {targets[0]}, targets[1..]);
      assert forall x :: x in targets <==> x == targets[0] || x in targets[1..];
      r
  }

  /** Re-running the creation loop changes nothing: `branch -f` to the same sha is idempotent. */
  lemma CreateAllIdempotent(b: set<Sha>, targets: seq<Sha>)
    ensures CreateAll(CreateAll(b, targets), targets) == CreateAll(b, targets)
  {
  }

  // ---------------------------------------------------------------------
  // Python pruning

  /**
   * Pruning for `s` in Python: delete every branch merged into `s` except
   * `keep-<s>` itself (doublegit.py:144-149).
   */
  function PrunePy(b: set<Sha>, s: Sha, le: Ancestry): (r: set<Sha>)
    ensures r <= b
    ensures forall x :: x in b ==> (x in r <==> !le(x, s) || x == s)
  {
    b - (Merged(b, s, le) - {s})
  }

  /**
   * The pruning loop, one target after another. An anchor survives it
   * exactly when it is strictly below none of the targets: each deletion
   * removes what is merged into that target, and nothing comes back.
   */
  function PrunePyAll(b: set<Sha>, targets: seq<Sha>, le: Ancestry): (r: set<Sha>)
    ensures r <= b
    ensures forall x :: x in r <==> x in b && forall i :: 0 <= i < |targets| ==> !le(x, targets[i]) || x == targets[i]
  {
    if |targets| == 0 then b
    else
      var r := PrunePyAll(PrunePy(b, targets[0], le), targets[1..], le);
      assert forall x :: (forall i :: 0 <= i < |targets| ==> !le(x, targets[i]) || x == targets[i])
                      <==> (!le(x, targets[0]) || x == targets[0])
                           && forall i :: 0 <= i < |targets[1..]| ==> !le(x, targets[1..][i]) || x == targets[1..][i];
      r
  }

  /** A Python cycle's anchor work: create every target's anchor, then prune for each. */
  function AnchorsPy(b: set<Sha>, targets: seq<Sha>, le: Ancestry): set<Sha> {
    PrunePyAll(CreateAll(b, targets), targets, le)
  }

  // ---------------------------------------------------------------------
  // Coverage

  /**
   * A deletion that removes only ancestors of `s`, and after which `s` is
   * still covered, keeps every covered commit covered.
   */
  lemma CoverTransfer(b: set<Sha>, r: set<Sha>, kept: set<Sha>, s: Sha, t: Sha, le: Ancestry)
    requires PartialOrder(le)
    requires r <= b
    requires forall x :: x in b && x !in r ==> le(x, s)
    requires Covers(r + kept, s, le)
    requires Covers(b + kept, t, le)
    ensures Covers(r + kept, t, le)
  {
    var x :| x in b + kept && le(t, x);
    if x !in r + kept {
      var y :| y in r + kept && le(s, y);
      assert le(t, s);
      assert le(t, y);
    }
  }

  /** Python pruning for `s` leaves `s` itself covered. */
  lemma PrunePyKeepsTarget(b: set<Sha>, kept: set<Sha>, s: Sha, le: Ancestry)
    requires PartialOrder(le)
    requires Covers(b + kept, s, le)
    ensures Covers(PrunePy(b, s, le) + kept, s, le)
  {
    var z :| z in b + kept && le(s, z);
    if z in b && !(z in kept) {
      assert !le(z, s) || z == s;
    }
  }

  /** Python pruning for a covered `s` keeps every covered commit covered. */
  lemma PrunePyKeepsCover(b: set<Sha>, kept: set<Sha>, s: Sha, t: Sha, le: Ancestry)
    requires PartialOrder(le)
    requires Covers(b + kept, s, le) && Covers(b + kept, t, le)
    ensures Covers(PrunePy(b, s, le) + kept, t, le)
  {
    PrunePyKeepsTarget(b, kept, s, le);
    CoverTransfer(b, PrunePy(b, s, le), kept, s, t, le);
  }

  /** All targets covered before the pruning loop stay covered after it. */
  lemma {:induction false} PrunePyAllCovers(b: set<Sha>, targets: seq<Sha>, all: seq<Sha>, le: Ancestry)
    requires PartialOrder(le)
    requires forall i :: 0 <= i < |targets| ==> targets[i] in all
    requires forall i :: 0 <= i < |all| ==> Covers(b, all[i], le)
    ensures forall i :: 0 <= i < |all| ==> Covers(PrunePyAll(b, targets, le), all[i], le)
  {
    if |targets| > 0 {
      var s := targets[0];
      var b1 := PrunePy(b, s, le);
      assert b + {} == b;
      assert b1 + {} == b1;
      forall i | 0 <= i < |all|
        ensures Covers(b1, all[i], le)
      {
        var j :| 0 <= j < |all| && all[j] == s;
        PrunePyKeepsCover(b, {}, s, all[i], le);
      }
      PrunePyAllCovers(b1, targets[1..], all, le);
    }
  }

  /**
   * Retention safety of a Python cycle: afterwards every target is still
   * reachable from some anchor branch, an old anchor survives exactly when
   * no target strictly contains it, and no anchor strictly below a target
   * is left.
   */
  lemma AnchorsPyRetains(b: set<Sha>, targets: seq<Sha>, le: Ancestry)
    requires PartialOrder(le)
    ensures forall i :: 0 <= i < |targets| ==> Covers(AnchorsPy(b, targets, le), targets[i], le)
    ensures AnchorsPy(b, targets, le) <= b + set t | t in targets
    ensures forall x :: x in b ==> (x in AnchorsPy(b, targets, le) <==> forall i :: 0 <= i < |targets| ==> !le(x, targets[i]) || x == targets[i])
    ensures forall x, i :: 0 <= i < |targets| && le(x, targets[i]) && x != targets[i] ==> x !in AnchorsPy(b, targets, le)
  {
    var c := CreateAll(b, targets);
    forall i | 0 <= i < |targets|
      ensures Covers(c, targets[i], le)
    {
      assert targets[i] in c && le(targets[i], targets[i]);
    }
    PrunePyAllCovers(c, targets, targets, le);
  }

  // ---------------------------------------------------------------------
  // Rust pruning

  /** `git branch -D keep-<sha>` for a branch that does not exist. */
  datatype PruneError = BranchNotFound(sha: Sha)

  /**
   * Pruning for `s` in Rust: the Python step, then, unless the ref is an
   * annotated tag, delete `keep-<s>` when more than one branch contains
   * `s`; that deletion fails when the branch is already gone. The Python
   * step's deletions have happened by then; `PruneRsAll` keeps them.
   */
  function PruneRs(b: set<Sha>, s: Sha, annotated: bool, le: Ancestry): (r: Result<set<Sha>, PruneError>)
    ensures r.Err? <==> !annotated && s !in b && |Including(PrunePy(b, s, le), s, le)| > 1
    ensures r.Err? ==> r.error == BranchNotFound(s)
    ensures r.Ok? ==> r.value <= b
    ensures r.Ok? ==> forall x :: x in b && x != s ==> (x in r.value <==> !le(x, s))
    ensures r.Ok? && annotated ==> (s in r.value <==> s in b)
    ensures r.Ok? && !annotated ==> (s in r.value <==> s in b && |Including(PrunePy(b, s, le), s, le)| <= 1)
    ensures r.Ok? && s in b && s !in r.value ==> exists y :: y in r.value && y != s && le(s, y)
  {
    var b1 := PrunePy(b, s, le);
    if !annotated && |Including(b1, s, le)| > 1 then
      if s in b1 then
        OtherMember(Including(b1, s, le), s);
        Ok(b1 - {s})
      else Err(BranchNotFound(s))
    else Ok(b1)
  }

  /** A set of more than one element holds something besides `s`. */
  lemma OtherMember(xs: set<Sha>, s: Sha)
    requires |xs| > 1
    ensures exists y :: y in xs && y != s
  {
    var y :| y in xs;
    if y == s {
      var rest := xs - {s};
      assert |rest| == |xs| - 1;
      var z :| z in rest;
    }
  }

  /** Rust pruning for `s` deletes only branches reachable from `s`. */
  lemma PruneRsDeletesBelow(b: set<Sha>, s: Sha, annotated: bool, le: Ancestry)
    requires PartialOrder(le)
    requires PruneRs(b, s, annotated, le).Ok?
    ensures forall x :: x in b && x !in PruneRs(b, s, annotated, le).value ==> le(x, s)
  {
  }

  /** Rust pruning for a covered `s` leaves `s` covered. */
  lemma PruneRsKeepsTarget(b: set<Sha>, kept: set<Sha>, s: Sha, annotated: bool, le: Ancestry)
    requires PartialOrder(le)
    requires Covers(b + kept, s, le)
    requires PruneRs(b, s, annotated, le).Ok?
    ensures Covers(PruneRs(b, s, annotated, le).value + kept, s, le)
  {
    var r := PruneRs(b, s, annotated, le).value;
    if s in b && s !in r {
      var y :| y in r && y != s && le(s, y);
      assert y in r + kept;
    } else if s in r {
      assert s in r + kept && le(s, s);
    } else {
      var z :| z in b + kept && le(s, z);
      assert z in r + kept;
    }
  }

  /** Rust pruning for a covered `s` keeps every covered commit covered. */
  lemma PruneRsKeepsCover(b: set<Sha>, kept: set<Sha>, s: Sha, annotated: bool, t: Sha, le: Ancestry)
    requires PartialOrder(le)
    requires Covers(b + kept, s, le) && Covers(b + kept, t, le)
    requires PruneRs(b, s, annotated, le).Ok?
    ensures Covers(PruneRs(b, s, annotated, le).value + kept, t, le)
  {
    PruneRsDeletesBelow(b, s, annotated, le);
    PruneRsKeepsTarget(b, kept, s, annotated, le);
    CoverTransfer(b, PruneRs(b, s, annotated, le).value, kept, s, t, le);
  }

  /** Where the Rust pruning loop stopped: the branches left, and the keeper it failed to delete. */
  datatype Pruned = Pruned(branches: set<Sha>, failed: Option<Sha>)

  /** A target of the Rust loop: its sha, and whether its ref is an annotated tag. */
  datatype Target = Target(sha: Sha, annotated: bool)

  /**
   * `left` is what pruning for the first `n` targets leaves of `b`: no
   * branch strictly below one of those targets, and every other branch of
   * `b` that is none of them.
   */
  predicate Handled(b: set<Sha>, targets: seq<Target>, n: nat, left: set<Sha>, le: Ancestry)
    requires n <= |targets|
  {
    && (forall x, j :: 0 <= j < n && le(x, targets[j].sha) && x != targets[j].sha ==> x !in left)
    && (forall x :: x in b && (forall j :: 0 <= j < n ==> !le(x, targets[j].sha) && x != targets[j].sha) ==> x in left)
  }

  /** A successful step for `targets[0]` followed by the rest of the loop handles one target more. */
  lemma HandledStep(b: set<Sha>, b1: set<Sha>, targets: seq<Target>, n: nat, left: set<Sha>, le: Ancestry)
    requires 0 < |targets| && n < |targets|
    requires b1 <= b && left <= b1
    requires forall x :: x in b && x != targets[0].sha ==> (x in b1 <==> !le(x, targets[0].sha))
    requires Handled(b1, targets[1..], n, left, le)
    ensures Handled(b, targets, n + 1, left, le)
  {
    forall x, j | 0 <= j < n + 1 && le(x, targets[j].sha) && x != targets[j].sha
      ensures x !in left
    {
      if j > 0 {
        assert targets[j] == targets[1..][j - 1];
      }
    }
    forall x | x in b && (forall j :: 0 <= j < n + 1 ==> !le(x, targets[j].sha) && x != targets[j].sha)
      ensures x in left
    {
      assert x in b1;
      forall j | 0 <= j < n
        ensures !le(x, targets[1..][j].sha) && x != targets[1..][j].sha
      {
        assert targets[1..][j] == targets[j + 1];
      }
    }
  }

  /**
   * The loop stopped at `targets[i]`: it is no annotated tag, its keeper is
   * gone, and the targets up to and including it have been handled.
   */
  predicate FailedAt(b: set<Sha>, targets: seq<Target>, i: nat, left: set<Sha>, le: Ancestry)
    requires i < |targets|
  {
    !targets[i].annotated && targets[i].sha !in left && Handled(b, targets, i + 1, left, le)
  }

  /** A failure later in the loop, seen from one successful step earlier. */
  lemma FailedStep(b: set<Sha>, b1: set<Sha>, targets: seq<Target>, i: nat, left: set<Sha>, le: Ancestry)
    requires 0 < |targets| && i < |targets| - 1
    requires b1 <= b && left <= b1
    requires forall x :: x in b && x != targets[0].sha ==> (x in b1 <==> !le(x, targets[0].sha))
    requires FailedAt(b1, targets[1..], i, left, le)
    ensures FailedAt(b, targets, i + 1, left, le) && targets[i + 1] == targets[1..][i]
  {
    HandledStep(b, b1, targets, i + 1, left, le);
  }

  /** The first target's failing step leaves the Python step's deletions in place. */
  lemma FailedFirst(b: set<Sha>, targets: seq<Target>, le: Ancestry)
    requires 0 < |targets| && PruneRs(b, targets[0].sha, targets[0].annotated, le).Err?
    ensures FailedAt(b, targets, 0, PrunePy(b, targets[0].sha, le), le)
  {
  }

  /**
   * The Rust pruning loop: one target after another, stopping at the first
   * error. The loop is not undone by an error: when the keeper deletion
   * for a target fails, the deletions of the branches merged into it have
   * already happened, and so have those of every earlier target. When the
   * loop runs to the end, no anchor strictly below a target is left.
   */
  function PruneRsAll(b: set<Sha>, targets: seq<Target>, le: Ancestry): (r: Pruned)
    ensures r.branches <= b
    ensures r.failed.Some? ==> exists i :: 0 <= i < |targets| && targets[i].sha == r.failed.value && !targets[i].annotated
    ensures r.failed.None? ==> forall x, i :: 0 <= i < |targets| && le(x, targets[i].sha) && x != targets[i].sha ==> x !in r.branches
  {
    if |targets| == 0 then Pruned(b, None)
    else
      match PruneRs(b, targets[0].sha, targets[0].annotated, le)
      case Err(e) => Pruned(PrunePy(b, targets[0].sha, le), Some(e.sha))
      case Ok(b1) =>
        var r := PruneRsAll(b1, targets[1..], le);
        assert r.failed.None? ==> forall x, i :: 0 <= i < |targets| && le(x, targets[i].sha) && x != targets[i].sha ==> x !in r.branches by {
          if r.failed.None? {
            forall x, i | 0 <= i < |targets| && le(x, targets[i].sha) && x != targets[i].sha
              ensures x !in r.branches
            {
              if i > 0 {
                assert targets[i] == targets[1..][i - 1];
              }
            }
          }
        }
        assert r.failed.Some? ==> exists i :: 0 <= i < |targets| && targets[i].sha == r.failed.value && !targets[i].annotated by {
          if r.failed.Some? {
            var i :| 0 <= i < |targets[1..]| && targets[1..][i].sha == r.failed.value && !targets[1..][i].annotated;
            assert targets[i + 1] == targets[1..][i];
          }
        }
        r
  }

  /**
   * What the Rust pruning loop leaves. When it runs to the end, every
   * target has been handled. When it stops at a target, that target and
   * every earlier one have been handled: the deletions made before the
   * failing keeper deletion are not undone.
   */
  lemma {:induction false} PruneRsAllLeaves(b: set<Sha>, targets: seq<Target>, le: Ancestry)
    ensures var r := PruneRsAll(b, targets, le);
            && (r.failed.None? ==> Handled(b, targets, |targets|, r.branches, le))
            && (r.failed.Some? ==> exists i :: 0 <= i < |targets| && targets[i].sha == r.failed.value
                                            && FailedAt(b, targets, i, r.branches, le))
  {
    if |targets| > 0 {
      match PruneRs(b, targets[0].sha, targets[0].annotated, le)
      case Err(_) =>
        FailedFirst(b, targets, le);
      case Ok(b1) =>
        PruneRsAllLeaves(b1, targets[1..], le);
        var r := PruneRsAll(b1, targets[1..], le);
        if r.failed.None? {
          HandledStep(b, b1, targets, |targets| - 1, r.branches, le);
        } else {
          var i :| 0 <= i < |targets[1..]| && targets[1..][i].sha == r.failed.value && FailedAt(b1, targets[1..], i, r.branches, le);
          FailedStep(b, b1, targets, i, r.branches, le);
        }
    }
  }

  /**
   * Every commit covered before the Rust pruning loop is covered after it,
   * by a branch or a kept tag, even when the loop stops at an error.
   */
  lemma {:induction false} PruneRsAllCovers(b: set<Sha>, kept: set<Sha>, targets: seq<Target>, all: seq<Sha>, le: Ancestry)
    requires PartialOrder(le)
    requires forall i :: 0 <= i < |targets| ==> targets[i].sha in all
    requires forall i :: 0 <= i < |all| ==> Covers(b + kept, all[i], le)
    ensures forall i :: 0 <= i < |all| ==> Covers(PruneRsAll(b, targets, le).branches + kept, all[i], le)
  {
    if |targets| > 0 {
      var s := targets[0];
      match PruneRs(b, s.sha, s.annotated, le)
      case Err(_) =>
        var left := PrunePy(b, s.sha, le);
        OtherMember(Including(left, s.sha, le), s.sha);
        var y :| y in Including(left, s.sha, le) && y != s.sha;
        assert y in left + kept;
        forall i | 0 <= i < |all|
          ensures Covers(left + kept, all[i], le)
        {
          CoverTransfer(b, left, kept, s.sha, all[i], le);
        }
      case Ok(b1) =>
        forall i | 0 <= i < |all|
          ensures Covers(b1 + kept, all[i], le)
        {
          var j :| 0 <= j < |all| && all[j] == s.sha;
          PruneRsKeepsCover(b, kept, s.sha, s.annotated, all[i], le);
        }
        assert forall i :: 0 <= i < |targets[1..]| ==> targets[1..][i] == targets[i + 1];
        PruneRsAllCovers(b1, kept, targets[1..], all, le);
    }
  }

  /**
   * A failing keeper deletion does not undo the deletions before it. With
   * `x` below `s`, and `s` below both `y1` and `y2`, pruning for `s` when
   * `keep-s` is missing first deletes `keep-x`, then fails on `keep-s`.
   */
  lemma DeletedBeforeFailure()
    ensures var le := (a: Sha, c: Sha) => a == c || (a == "x" && c in {"s", "y1", "y2"}) || (a == "s" && c in {"y1", "y2"});
      PruneRsAll({"x", "y1", "y2"}, [Target("s", false)], le) == Pruned({"y1", "y2"}, Some("s"))
  {
    var le := (a: Sha, c: Sha) => a == c || (a == "x" && c in {"s", "y1", "y2"}) || (a == "s" && c in {"y1", "y2"});
    var b1: set<Sha> := {"y1", "y2"};
    assert PrunePy({"x", "y1", "y2"}, "s", le) == b1;
    assert Including(b1, "s", le) == b1;
    assert PruneRs({"x", "y1", "y2"}, "s", false, le) == Err(BranchNotFound("s"));
  }

  /**
   * The Rust loop can fail on a keeper an earlier target of the same cycle
   * already pruned. With `c1` an ancestor of both `c2` and `c3`, which are
   * unrelated, and the targets in the order `c2`, `c3`, `c1`: pruning for
   * `c2` deletes `keep-c1`; pruning for `c1` then finds two branches
   * containing `c1` and tries to delete `keep-c1` again.
   */
  lemma KeeperAlreadyPruned()
    ensures var le := (x: Sha, y: Sha) => x == y || (x == "c1" && (y == "c2" || y == "c3"));
      PruneRsAll({"c1", "c2", "c3"}, [Target("c2", false), Target("c3", false), Target("c1", false)], le)
      == Pruned({"c2", "c3"}, Some("c1"))
  {
    var le := (x: Sha, y: Sha) => x == y || (x == "c1" && (y == "c2" || y == "c3"));
    var b0: set<Sha> := {"c1", "c2", "c3"};
    var b1: set<Sha> := {"c2", "c3"};
    assert PrunePy(b0, "c2", le) == b1;
    assert Including(b1, "c2", le) == {"c2"};
    assert PruneRs(b0, "c2", false, le) == Ok(b1);
    assert PrunePy(b1, "c3", le) == b1;
    assert Including(b1, "c3", le) == {"c3"};
    assert PruneRs(b1, "c3", false, le) == Ok(b1);
    assert PrunePy(b1, "c1", le) == b1;
    assert Including(b1, "c1", le) == b1;
    assert PruneRs(b1, "c1", false, le) == Err(BranchNotFound("c1"));
  }
}

=== FILE: fetch_grammar.dfy ===
/**
 * The per-ref line pattern of `git fetch` output that doublegit matches
 * (doublegit.py:13-14):
 *
 *   ' ' marker ' '+ summary ' '+ source ' '+ '->' ' '+ dest (' '+ reason)?
 *
 * The pattern is stated as a datatype of the fields of a matching line
 * together with `Render`, which writes the fields back out; a line matches
 * iff some well-formed `RefLine` renders to it. `Scan` is the tokenizer that
 * finds those fields. The summary field has two alternatives, a space-free
 * word or a bracketed text that may hold spaces; the regex engine tries the
 * word alternative first and only falls back to the bracketed one when the
 * word alternative cannot complete the match.
 *
 * Lines handed to the pattern never hold a line break (they come from
 * `splitlines`), so the reason's `.+` accepts every character here and `$`
 * is the end of the line.
 */
module FetchGrammar {
  import opened Wrappers

  /** The marker class `[+t*! -]`. */
  const Markers: set<char> := {'+', 't', '*', '!', ' ', '-'}

  predicate NoSpace(s: string) {
    forall i :: 0 <= i < |s| ==> s[i] != ' '
  }

  /** A non-empty run of non-space characters, the regex's `[^ ]+`. */
  predicate IsWord(s: string) {
    |s| > 0 && NoSpace(s)
  }

  function Spaces(n: nat): string {
    seq(n, _ => ' ')
  }

  datatype Summary = Word(text: string) | Bracketed(inner: string)

  function SummaryText(s: Summary): string {
    match s
    case Word(t) => t
    case Bracketed(i) => "[" + (i + "]")
  }

  /** `[^ ]+` for a word, `\[[^\]]+\]` for a bracketed summary. */
  predicate SummaryOk(s: Summary) {
    match s
    case Word(t) => IsWord(t)
    case Bracketed(i) => |i| > 0 && ']' !in i
  }

  /** Everything after the summary: ` +source +-> +dest` and the optional ` +reason`. */
  datatype Arrow = Arrow(gap2: nat, source: string, gap3: nat, gap4: nat, dest: string, tail: string)

  /** `(?: +(.+))?$` on a line without line breaks: nothing, or a space followed by at least one more character. */
  predicate TailOk(t: string) {
    t == [] || (|t| >= 2 && t[0] == ' ')
  }

  predicate ArrowOk(a: Arrow) {
    && a.gap2 > 0 && IsWord(a.source) && a.gap3 > 0
    && a.gap4 > 0 && IsWord(a.dest) && TailOk(a.tail)
  }

  function ArrowText(a: Arrow): string {
    Spaces(a.gap2) + (a.source + (Spaces(a.gap3) + ("->" + (Spaces(a.gap4) + (a.dest + a.tail)))))
  }

  /** The fields of one matching line. */
  datatype RefLine = RefLine(marker: char, gap1: nat, summary: Summary, arrow: Arrow)

  predicate WellFormed(f: RefLine) {
    f.marker in Markers && f.gap1 > 0 && SummaryOk(f.summary) && ArrowOk(f.arrow)
  }

  function Render(f: RefLine): string {
    [' ', f.marker] + (Spaces(f.gap1) + (SummaryText(f.summary) + ArrowText(f.arrow)))
  }

  /** The line matches the pattern: some well-formed field split renders to it. */
  ghost predicate Matches(line: string) {
    exists f :: WellFormed(f) && Render(f) == line
  }

  // ---------------------------------------------------------------------
  // Tokenizer helpers

  /** Length of the leading run of spaces. */
  function SpaceRun(s: string): (n: nat)
    ensures n <= |s|
    ensures forall i :: 0 <= i < n ==> s[i] == ' '
    ensures n < |s| ==> s[n] != ' '
  {
    if |s| > 0 && s[0] == ' ' then 1 + SpaceRun(s[1..]) else 0
  }

  /** Length of the leading run of non-space characters. */
  function WordRun(s: string): (n: nat)
    ensures n <= |s|
    ensures forall i :: 0 <= i < n ==> s[i] != ' '
    ensures n < |s| ==> s[n] == ' '
  {
    if |s| > 0 && s[0] != ' ' then 1 + WordRun(s[1..]) else 0
  }

  /** Index of the first `c` in `s`, or `|s|` when there is none. */
  function IndexOf(s: string, c: char): (n: nat)
    ensures n <= |s|
    ensures forall i :: 0 <= i < n ==> s[i] != c
    ensures n < |s| ==> s[n] == c
  {
    if |s| == 0 then 0 else if s[0] == c then 0 else 1 + IndexOf(s[1..], c)
  }

  /** ` +`: a maximal, non-empty run of spaces and what follows it. */
  function ScanGap(s: string): (r: Option<(nat, string)>)
    ensures r.Some? ==> r.value.0 > 0 && s == Spaces(r.value.0) + r.value.1
    ensures r.Some? ==> r.value.1 == [] || r.value.1[0] != ' '
  {
    var n := SpaceRun(s);
    if n == 0 then None
    else
      assert s == s[..n] + s[n..];
      assert s[..n] == Spaces(n);
      Some((n, s[n..]))
  }

  /** `[^ ]+`: a maximal word and what follows it. */
  function ScanWord(s: string): (r: Option<(string, string)>)
    ensures r.Some? ==> IsWord(r.value.0) && s == r.value.0 + r.value.1
    ensures r.Some? ==> r.value.1 == [] || r.value.1[0] == ' '
  {
    var n := WordRun(s);
    if n == 0 then None
    else
      assert s == s[..n] + s[n..];
      Some((s[..n], s[n..]))
  }

  /** `\[[^\]]+\]`: a bracketed text up to the first `]`, and what follows it. */
  function ScanBracket(s: string): (r: Option<(string, string)>)
    ensures r.Some? ==> |r.value.0| > 0 && ']' !in r.value.0 && s == SummaryText(Bracketed(r.value.0)) + r.value.1
  {
    if |s| == 0 || s[0] != '[' then None
    else
      var k := IndexOf(s[1..], ']');
      if k == 0 || k == |s| - 1 then None
      else
        var inner := s[1..k + 1];
        assert forall i :: 0 <= i < k ==> inner[i] == s[1..][i];
        assert s == "[" + (inner + "]") + s[k + 2..];
        Some((inner, s[k + 2..]))
  }

  /** The literal `->` and what follows it. */
  function ScanArrowToken(s: string): (r: Option<string>)
    ensures r.Some? ==> s == "->" + r.value
  {
    if |s| >= 2 && s[0] == '-' && s[1] == '>' then
      assert s == "->" + s[2..];
      Some(s[2..])
    else None
  }

  lemma ScanGapOf(n: nat, x: string)
    requires n > 0
    requires x == [] || x[0] != ' '
    ensures ScanGap(Spaces(n) + x) == Some((n, x))
  {
    var s := Spaces(n) + x;
    assert s[n..] == x;
  }

  lemma ScanWordOf(w: string, x: string)
    requires IsWord(w)
    requires x == [] || x[0] == ' '
    ensures ScanWord(w + x) == Some((w, x))
  {
    var s := w + x;
    assert s[..|w|] == w;
    assert s[|w|..] == x;
  }

  lemma ScanBracketOf(inner: string, x: string)
    requires |inner| > 0 && ']' !in inner
    ensures ScanBracket(SummaryText(Bracketed(inner)) + x) == Some((inner, x))
  {
    var s := SummaryText(Bracketed(inner)) + x;
    var t := inner + [']'] + x;
    assert s[1..] == t;
    IndexOfAfter(inner, ']', x);
    assert s[1..|inner| + 1] == inner;
    assert s[|inner| + 2..] == x;
  }

  lemma IndexOfAfter(a: string, c: char, x: string)
    requires c !in a
    ensures IndexOf(a + [c] + x, c) == |a|
  {
    var s := a + [c] + x;
    assert s[|a|] == c;
  }

  // ---------------------------------------------------------------------
  // Scanning

  /** Scans ` +source +-> +dest` followed by an acceptable tail. */
  function ScanArrow(s: string): (r: Option<Arrow>)
    ensures r.Some? ==> ArrowOk(r.value) && ArrowText(r.value) == s
  {
    var (g2, s1) :- ScanGap(s);
    var (source, s2) :- ScanWord(s1);
    var (g3, s3) :- ScanGap(s2);
    var s4 :- ScanArrowToken(s3);
    var (g4, s5) :- ScanGap(s4);
    var (dest, tail) :- ScanWord(s5);
    if TailOk(tail) then Some(Arrow(g2, source, g3, g4, dest, tail)) else None
  }

  /** The marker and the gap after it, common to both alternatives. */
  function ScanHead(line: string): (r: Option<(char, nat, string)>)
    ensures r.Some? ==> r.value.0 in Markers && r.value.1 > 0
    ensures r.Some? ==> line == [' ', r.value.0] + (Spaces(r.value.1) + r.value.2)
    ensures r.Some? ==> r.value.2 == [] || r.value.2[0] != ' '
  {
    if |line| < 2 || line[0] != ' ' || line[1] !in Markers then None
    else
      var (g1, s) :- ScanGap(line[2..]);
      assert line == [' ', line[1]] + line[2..];
      Some((line[1], g1, s))
  }

  /** The pattern with the word alternative for the summary. */
  function ScanWordAlt(line: string): (r: Option<RefLine>)
    ensures r.Some? ==> WellFormed(r.value) && Render(r.value) == line && r.value.summary.Word?
  {
    var (marker, g1, s) :- ScanHead(line);
    var (w, rest) :- ScanWord(s);
    var a :- ScanArrow(rest);
    Some(RefLine(marker, g1, Word(w), a))
  }

  /** The pattern with the bracketed alternative for the summary. */
  function ScanBracketAlt(line: string): (r: Option<RefLine>)
    ensures r.Some? ==> WellFormed(r.value) && Render(r.value) == line && r.value.summary.Bracketed?
  {
    var (marker, g1, s) :- ScanHead(line);
    var (inner, rest) :- ScanBracket(s);
    var a :- ScanArrow(rest);
    Some(RefLine(marker, g1, Bracketed(inner), a))
  }

  /**
   * The regex match: the word alternative when it completes, the bracketed
   * alternative otherwise. `None` when the line does not match.
   */
  function Scan(line: string): (r: Option<RefLine>)
    ensures r.Some? ==> WellFormed(r.value) && Render(r.value) == line
  {
    match ScanWordAlt(line)
    case Some(f) => Some(f)
    case None => ScanBracketAlt(line)
  }

  // ---------------------------------------------------------------------
  // Completeness: every field split of the pattern is found

  lemma ScanArrowComplete(a: Arrow)
    requires ArrowOk(a)
    ensures ScanArrow(ArrowText(a)) == Some(a)
  {
    var t4 := a.dest + a.tail;
    var t3 := Spaces(a.gap4) + t4;
    var t2 := "->" + t3;
    var t1 := Spaces(a.gap3) + t2;
    var t0 := a.source + t1;
    ScanGapOf(a.gap2, t0);
    ScanWordOf(a.source, t1);
    ScanGapOf(a.gap3, t2);
    assert ScanArrowToken(t2) == Some(t3);
    ScanGapOf(a.gap4, t4);
    ScanWordOf(a.dest, a.tail);
  }

  lemma ScanHeadOf(f: RefLine)
    requires WellFormed(f)
    ensures ScanHead(Render(f)) == Some((f.marker, f.gap1, SummaryText(f.summary) + ArrowText(f.arrow)))
  {
    var line := Render(f);
    var s := SummaryText(f.summary) + ArrowText(f.arrow);
    assert line[2..] == Spaces(f.gap1) + s;
    assert SummaryText(f.summary)[0] != ' ';
    ScanGapOf(f.gap1, s);
  }

  lemma ScanWordComplete(f: RefLine)
    requires WellFormed(f) && f.summary.Word?
    ensures ScanWordAlt(Render(f)) == Some(f)
  {
    ScanHeadOf(f);
    ScanWordOf(f.summary.text, ArrowText(f.arrow));
    ScanArrowComplete(f.arrow);
  }

  lemma ScanBracketComplete(f: RefLine)
    requires WellFormed(f) && f.summary.Bracketed?
    ensures ScanBracketAlt(Render(f)) == Some(f)
  {
    ScanHeadOf(f);
    ScanBracketOf(f.summary.inner, ArrowText(f.arrow));
    ScanArrowComplete(f.arrow);
  }

  /**
   * `Scan` finds a match whenever the line matches; the split it returns is
   * `f` itself unless `f` uses the bracketed alternative and the word
   * alternative also completes, in which case the word split wins.
   */
  lemma ScanComplete(f: RefLine)
    requires WellFormed(f)
    ensures Scan(Render(f)).Some?
    ensures f.summary.Word? ==> Scan(Render(f)) == Some(f)
    ensures Scan(Render(f)).value.summary.Bracketed? ==> Scan(Render(f)) == Some(f)
  {
    if f.summary.Word? {
      ScanWordComplete(f);
    } else {
      ScanBracketComplete(f);
    }
  }

  /** Two word-alternative splits of one line are the same split, and likewise for bracketed ones. */
  lemma SplitUnique(f: RefLine, g: RefLine)
    requires WellFormed(f) && WellFormed(g) && Render(f) == Render(g)
    requires f.summary.Word? == g.summary.Word?
    ensures f == g
  {
    if f.summary.Word? {
      ScanWordComplete(f);
      ScanWordComplete(g);
    } else {
      ScanBracketComplete(f);
      ScanBracketComplete(g);
    }
  }

  /** `Scan` answers `None` exactly on the lines that do not match the pattern. */
  lemma ScanNoneIffNoMatch(line: string)
    ensures Scan(line).None? <==> !Matches(line)
  {
    if Matches(line) {
      var f :| WellFormed(f) && Render(f) == line;
      ScanComplete(f);
    }
  }

  /**
   * Both alternatives complete on ` * [a b] -> -> c`; the word alternative
   * wins, so the recorded destination is `->`, not `c`.
   */
  lemma WordAlternativeWins()
    ensures WellFormed(AmbiguousBracketed) && Render(AmbiguousBracketed) == AmbiguousLine
    ensures Scan(AmbiguousLine) == Some(AmbiguousWord)
  {
    AmbiguousRenders();
    ScanComplete(AmbiguousWord);
  }

  const AmbiguousLine: string := " * [a b] -> -> c"
  const AmbiguousWord := RefLine('*', 1, Word("[a"), Arrow(1, "b]", 1, 1, "->", " c"))
  const AmbiguousBracketed := RefLine('*', 1, Bracketed("a b"), Arrow(1, "->", 1, 1, "c", ""))

  lemma AmbiguousRenders()
    ensures WellFormed(AmbiguousWord) && Render(AmbiguousWord) == AmbiguousLine
    ensures WellFormed(AmbiguousBracketed) && Render(AmbiguousBracketed) == AmbiguousLine
  {
    WordReadingRenders();
    BracketedReadingRenders();
  }

  lemma WordReadingRenders()
    ensures WellFormed(AmbiguousWord) && Render(AmbiguousWord) == AmbiguousLine
  {
    assert Spaces(1) == " ";
  }

  lemma BracketedReadingRenders()
    ensures WellFormed(AmbiguousBracketed) && Render(AmbiguousBracketed) == AmbiguousLine
  {
    assert Spaces(1) == " ";
  }
}

=== FILE: fetch_parse.dfy ===
/**
 * The parsing loop of doublegit's `fetch` (doublegit.py:35-60): the stderr
 * of `git fetch --prune --all` is split into lines, each line is matched
 * against the per-ref pattern, and matching lines are sorted by their
 * marker into the `new`, `changed` and `removed` lists. Tag lines are
 * collected but not returned; a reject line aborts the parse.
 */
module FetchParse {
  import opened Wrappers
  import opened FetchGrammar

  // ---------------------------------------------------------------------
  // Line splitting (`bytes.splitlines`: `\n`, `\r` and `\r\n` end a line)

  predicate IsBreak(c: char) {
    c == '\n' || c == '\r'
  }

  predicate NoBreak(s: string) {
    '\n' !in s && '\r' !in s
  }

  /** Index of the first line break, or `|s|`. */
  function BreakAt(s: string): (n: nat)
    ensures n <= |s|
    ensures forall i :: 0 <= i < n ==> !IsBreak(s[i])
    ensures n < |s| ==> IsBreak(s[n])
  {
    if |s| == 0 || IsBreak(s[0]) then 0 else 1 + BreakAt(s[1..])
  }

  function SplitLines(s: string): (lines: seq<string>)
    ensures forall i :: 0 <= i < |lines| ==> NoBreak(lines[i])
    decreases |s|
  {
    if |s| == 0 then []
    else
      var n := BreakAt(s);
      if n == |s| then [s]
      else
        var next := if s[n] == '\r' && n + 1 < |s| && s[n + 1] == '\n' then n + 2 else n + 1;
        [s[..n]] + SplitLines(s[next..])
  }

  /** Lines each terminated by `\n`, the shape of git's stderr. */
  function JoinLines(lines: seq<string>): string {
    if |lines| == 0 then [] else lines[0] + ("\n" + JoinLines(lines[1..]))
  }

  lemma BreakAtOf(l: string, x: string)
    requires NoBreak(l)
    requires |x| > 0 && IsBreak(x[0])
    ensures BreakAt(l + x) == |l|
  {
    assert (l + x)[|l|] == x[0];
  }

  /** Splitting newline-terminated lines gives the lines back. */
  lemma {:induction false} SplitJoin(lines: seq<string>)
    requires forall i :: 0 <= i < |lines| ==> NoBreak(lines[i])
    ensures SplitLines(JoinLines(lines)) == lines
  {
    if |lines| > 0 {
      var l := lines[0];
      var rest := JoinLines(lines[1..]);
      var s := l + ("\n" + rest);
      assert JoinLines(lines) == s;
      BreakAtOf(l, "\n" + rest);
      assert s[..|l|] == l;
      assert s[|l| + 1..] == rest;
      SplitJoin(lines[1..]);
      assert lines == [l] + lines[1..];
    }
  }

  // ---------------------------------------------------------------------
  // Classification of one line

  /** What a matching line reports: the `Operation` markers of doublegit.py:17-24. */
  datatype Kind = New | Changed | Removed | Tag | Reject

  /**
   * The marker dispatch of doublegit.py:46-57. The final `raise RuntimeError`
   * branch is `None`; it is reached exactly by the markers outside the
   * pattern's class, so it never fires for a matching line.
   */
  function MarkerKind(c: char): (k: Option<Kind>)
    ensures k.Some? <==> c in Markers
    ensures k == Some(New) <==> c == '*'
    ensures k == Some(Changed) <==> c == ' ' || c == '+'
    ensures k == Some(Removed) <==> c == '-'
    ensures k == Some(Tag) <==> c == 't'
    ensures k == Some(Reject) <==> c == '!'
  {
    if c == '*' then Some(New)
    else if c == ' ' || c == '+' then Some(Changed)
    else if c == '-' then Some(Removed)
    else if c == 't' then Some(Tag)
    else if c == '!' then Some(Reject)
    else None
  }

  /** The event of one line: its kind and the destination ref after `->`. */
  datatype Event = Event(kind: Kind, ref: string)

  /**
   * The match and dispatch of one line (doublegit.py:41-57): a line has an
   * event exactly when it matches the pattern, the event's kind is the one
   * its marker column names, and its ref is the destination field of a
   * field split of the line. Where a line splits both ways, the regex's
   * first alternative, the `[^ ]+` summary, decides the ref; a bracketed
   * split decides it only when no word split renders the line.
   */
  function LineEvent(line: string): (e: Option<Event>)
    ensures e.Some? <==> Matches(line)
    ensures e.Some? ==> |line| >= 2 && MarkerKind(line[1]) == Some(e.value.kind)
    ensures e.Some? ==> exists f :: WellFormed(f) && Render(f) == line && f.arrow.dest == e.value.ref
    ensures forall f {:trigger Render(f)} :: WellFormed(f) && Render(f) == line && f.summary.Word? ==>
      e == Some(Event(MarkerKind(f.marker).value, f.arrow.dest))
    ensures (forall g {:trigger Render(g)} :: WellFormed(g) && Render(g) == line ==> !g.summary.Word?) ==>
      forall f {:trigger Render(f)} :: WellFormed(f) && Render(f) == line ==> e == Some(Event(MarkerKind(f.marker).value, f.arrow.dest))
  {
    ScanNoneIffNoMatch(line);
    forall f | WellFormed(f) && Render(f) == line {
      ScanComplete(f);
    }
    match Scan(line)
    case None => None
    case Some(f) =>
      assert Render(f)[1] == f.marker;
      Some(Event(MarkerKind(f.marker).value, f.arrow.dest))
  }

  /** On a line both summary alternatives fit, the event's ref is the word split's destination. */
  lemma AmbiguousLineEvent()
    ensures LineEvent(AmbiguousLine) == Some(Event(New, "->"))
  {
    AmbiguousRenders();
  }

  /** `=` (up to date) lines fall outside the marker class and are skipped. */
  lemma NoOpLineSkipped(line: string)
    requires |line| >= 2 && line[1] == '='
    ensures LineEvent(line).None?
  {
    assert '=' !in Markers;
    assert ScanHead(line).None?;
  }

  /** The event of every line, in order. */
  function Events(lines: seq<string>): (evs: seq<Option<Event>>)
    ensures |evs| == |lines|
  {
    if |lines| == 0 then [] else [LineEvent(lines[0])] + Events(lines[1..])
  }

  lemma {:induction false} EventsAt(lines: seq<string>, i: nat)
    requires i < |lines|
    ensures Events(lines)[i] == LineEvent(lines[i])
  {
    if i > 0 {
      EventsAt(lines[1..], i - 1);
    }
  }

  lemma EventsPointwise(lines: seq<string>)
    ensures forall i :: 0 <= i < |lines| ==> Events(lines)[i] == LineEvent(lines[i])
  {
    forall i | 0 <= i < |lines| {
      EventsAt(lines, i);
    }
  }

  /** An event of some kind carried by the event list is carried by a line, and back. */
  lemma EventsCarry(lines: seq<string>, e: Option<Event>)
    ensures (exists i :: 0 <= i < |lines| && Events(lines)[i] == e) <==> (exists i :: 0 <= i < |lines| && LineEvent(lines[i]) == e)
  {
    if i :| 0 <= i < |lines| && Events(lines)[i] == e {
      EventsAt(lines, i);
    }
    if i :| 0 <= i < |lines| && LineEvent(lines[i]) == e {
      EventsAt(lines, i);
    }
  }

  /** Some line has an event of kind `k` for ref `x`. */
  predicate Carries(lines: seq<string>, k: Kind, x: string) {
    exists i :: 0 <= i < |lines| && LineEvent(lines[i]) == Some(Event(k, x))
  }

  /** A ref is picked for a kind exactly when some line carries it with that kind. */
  lemma PickedLines(lines: seq<string>, k: Kind, x: string)
    ensures x in Picked(Events(lines), k) <==> Carries(lines, k, x)
  {
    PickedMembership(Events(lines), k, x);
    EventsCarry(lines, Some(Event(k, x)));
  }

  lemma {:induction false} EventsAppend(a: seq<string>, b: seq<string>)
    ensures Events(a + b) == Events(a) + Events(b)
  {
    if |a| > 0 {
      assert (a + b)[1..] == a[1..] + b;
      EventsAppend(a[1..], b);
    } else {
      assert a + b == b;
    }
  }

  predicate IsReject(e: Option<Event>) {
    e.Some? && e.value.kind == Reject
  }

  // ---------------------------------------------------------------------
  // The lists

  function Contribution(e: Option<Event>, k: Kind): seq<string> {
    match e
    case Some(ev) => if ev.kind == k then [ev.ref] else []
    case None => []
  }

  /** The refs of the events of kind `k`, in order. */
  function Picked(evs: seq<Option<Event>>, k: Kind): seq<string> {
    if |evs| == 0 then []
    else Picked(evs[..|evs| - 1], k) + Contribution(evs[|evs| - 1], k)
  }

  /** Index of the first reject event. */
  function FirstReject(evs: seq<Option<Event>>): (r: Option<nat>)
    ensures r.None? ==> forall i :: 0 <= i < |evs| ==> !IsReject(evs[i])
    ensures r.Some? ==> r.value < |evs| && IsReject(evs[r.value])
    ensures r.Some? ==> forall i :: 0 <= i < r.value ==> !IsReject(evs[i])
  {
    if |evs| == 0 then None
    else if IsReject(evs[0]) then Some(0)
    else
      match FirstReject(evs[1..])
      case None => None
      case Some(i) => Some(i + 1)
  }

  /** `(new, changed, removed)` as returned by `fetch`. */
  datatype FetchRefs = FetchRefs(newRefs: seq<string>, changed: seq<string>, removed: seq<string>)

  /** The `ValueError("Error updating ref ...")` raised for a reject line. */
  datatype FetchError = RefRejected(ref: string)

  /** What parsing a sequence of line events yields. */
  function ClassifyEvents(evs: seq<Option<Event>>): (r: Result<FetchRefs, FetchError>)
    ensures r.Err? <==> exists i :: 0 <= i < |evs| && IsReject(evs[i])
    ensures r.Err? ==> exists i :: 0 <= i < |evs| && evs[i] == Some(Event(Reject, r.error.ref))
                                && forall j :: 0 <= j < i ==> !IsReject(evs[j])
  {
    match FirstReject(evs)
    case Some(i) => Err(RefRejected(evs[i].value.ref))
    case None => Ok(FetchRefs(Picked(evs, New), Picked(evs, Changed), Picked(evs, Removed)))
  }

  /** What parsing the given lines yields. */
  function Classify(lines: seq<string>): Result<FetchRefs, FetchError> {
    ClassifyEvents(Events(lines))
  }

  /** The parsing loop of `fetch`, over the captured stderr text. */
  method ParseFetchOutput(output: string) returns (r: Result<FetchRefs, FetchError>)
    ensures r == Classify(SplitLines(output))
  {
    r := ParseEvents(Events(SplitLines(output)));
  }

  /** The loop body of `fetch` run over the line events. */
  method ParseEvents(evs: seq<Option<Event>>) returns (r: Result<FetchRefs, FetchError>)
    ensures r == ClassifyEvents(evs)
  {
    var newRefs: seq<string> := [];
    var changed: seq<string> := [];
    var removed: seq<string> := [];
    var tags: seq<string> := [];
    var i := 0;
    while i < |evs|
      invariant 0 <= i <= |evs|
      invariant forall j :: 0 <= j < i ==> !IsReject(evs[j])
      invariant newRefs == Picked(evs[..i], New)
      invariant changed == Picked(evs[..i], Changed)
      invariant removed == Picked(evs[..i], Removed)
      invariant tags == Picked(evs[..i], Tag)
    {
      PickedStep(evs, i, New);
      PickedStep(evs, i, Changed);
      PickedStep(evs, i, Removed);
      PickedStep(evs, i, Tag);
      match evs[i] {
        case None =>
        case Some(e) =>
          match e.kind {
            case New => newRefs := newRefs + [e.ref];
            case Changed => changed := changed + [e.ref];
            case Removed => removed := removed + [e.ref];
            case Tag => tags := tags + [e.ref];
            case Reject =>
              RejectAt(evs, i);
              return Err(RefRejected(e.ref));
          }
      }
      i := i + 1;
    }
    assert evs[..i] == evs;
    assert FirstReject(evs).None?;
    return Ok(FetchRefs(newRefs, changed, removed));
  }

  /** The first reject event decides the outcome. */
  lemma RejectAt(evs: seq<Option<Event>>, i: nat)
    requires i < |evs| && IsReject(evs[i])
    requires forall j :: 0 <= j < i ==> !IsReject(evs[j])
    ensures ClassifyEvents(evs) == Err(RefRejected(evs[i].value.ref))
  {
    assert FirstReject(evs) == Some(i);
  }

  // ---------------------------------------------------------------------
  // Properties of the lists

  /** A ref is in the list of kind `k` iff some event reports it with kind `k`. */
  lemma {:induction false} PickedMembership(evs: seq<Option<Event>>, k: Kind, x: string)
    ensures x in Picked(evs, k) <==> exists i :: 0 <= i < |evs| && evs[i] == Some(Event(k, x))
  {
    if |evs| > 0 {
      var n := |evs| - 1;
      var init := evs[..n];
      PickedMembership(init, k, x);
      assert forall i :: 0 <= i < n ==> init[i] == evs[i];
    }
  }

  /** The lists keep line order: the events of `a` contribute before those of `b`. */
  lemma {:induction false} PickedAppend(a: seq<Option<Event>>, b: seq<Option<Event>>, k: Kind)
    ensures Picked(a + b, k) == Picked(a, k) + Picked(b, k)
  {
    if |b| > 0 {
      var n := |b| - 1;
      assert (a + b)[..|a + b| - 1] == a + b[..n];
      PickedAppend(a, b[..n], k);
    } else {
      assert a + b == a;
    }
  }

  /** One more event extends each list by that event's contribution. */
  lemma PickedStep(evs: seq<Option<Event>>, i: nat, k: Kind)
    requires i < |evs|
    ensures Picked(evs[..i + 1], k) == Picked(evs[..i], k) + Contribution(evs[i], k)
  {
    assert evs[..i + 1][..i] == evs[..i];
  }

  /** The first reject of a concatenation: the first one of `a`, else the first one of `b`. */
  lemma {:induction false} FirstRejectAppend(a: seq<Option<Event>>, b: seq<Option<Event>>)
    ensures FirstReject(a).Some? ==> FirstReject(a + b) == FirstReject(a)
    ensures FirstReject(a).None? && FirstReject(b).None? ==> FirstReject(a + b).None?
    ensures FirstReject(a).None? && FirstReject(b).Some? ==> FirstReject(a + b) == Some(|a| + FirstReject(b).value)
  {
    if |a| == 0 {
      assert a + b == b;
    } else {
      assert (a + b)[0] == a[0];
      assert (a + b)[1..] == a[1..] + b;
      FirstRejectAppend(a[1..], b);
    }
  }

  lemma SkipFirstReject(a: seq<Option<Event>>, e: Option<Event>, b: seq<Option<Event>>)
    requires !IsReject(e)
    ensures FirstReject(a + b).None? <==> FirstReject(a + [e] + b).None?
    ensures FirstReject(a + b).Some? ==> (a + b)[FirstReject(a + b).value] == (a + [e] + b)[FirstReject(a + [e] + b).value]
  {
    var eb := [e] + b;
    assert a + [e] + b == a + eb;
    assert eb[1..] == b;
    FirstRejectAppend(a, b);
    FirstRejectAppend(a, eb);
    match FirstReject(b) {
      case Some(j) =>
        assert eb[1 + j] == b[j];
      case None =>
    }
  }

  lemma SkipPicked(a: seq<Option<Event>>, e: Option<Event>, b: seq<Option<Event>>, k: Kind)
    requires Contribution(e, k) == []
    ensures Picked(a + [e] + b, k) == Picked(a + b, k)
  {
    PickedAppend(a + [e], b, k);
    PickedAppend(a, [e], k);
    PickedAppend(a, b, k);
    PickedOne(e, k);
  }

  lemma PickedOne(e: Option<Event>, k: Kind)
    ensures Picked([e], k) == Contribution(e, k)
  {
    assert [e][..0] == [];
  }

  /** An event that is no match, or a tag, changes nothing in the outcome. */
  lemma IgnoredEvent(a: seq<Option<Event>>, e: Option<Event>, b: seq<Option<Event>>)
    requires e.None? || e.value.kind == Tag
    ensures ClassifyEvents(a + [e] + b) == ClassifyEvents(a + b)
  {
    SkipFirstReject(a, e, b);
    SkipPicked(a, e, b, New);
    SkipPicked(a, e, b, Changed);
    SkipPicked(a, e, b, Removed);
  }

  /** Lines that do not match the pattern, and tag lines, are skipped. */
  lemma IgnoredLine(a: seq<string>, line: string, b: seq<string>)
    requires LineEvent(line).None? || LineEvent(line).value.kind == Tag
    ensures Classify(a + [line] + b) == Classify(a + b)
  {
    EventsAppend(a + [line], b);
    EventsAppend(a, [line]);
    EventsAppend(a, b);
    assert Events([line]) == [LineEvent(line)];
    IgnoredEvent(Events(a), LineEvent(line), Events(b));
  }
}

=== FILE: fetch_transcript.dfy ===
/**
 * The parsing example of tests.py:15-31: a `git fetch` transcript with
 * progress lines, one new branch, one fast-forward and one pruned branch.
 * The three per-ref lines are written field by field so that their text can
 * be compared with the fields the pattern finds.
 */
module FetchTranscript {
  import opened Wrappers
  import opened FetchGrammar
  import opened FetchParse

  const NewBranchLine: string := " * " + "[new branch]" + "      " + "master" + "     " + "->" + " " + "origin/master"
  const FastForwardLine: string := "   " + "673b728..466e90b" + "  " + "devel" + "      " + "->" + " " + "origin/devel"
  const PrunedLine: string := " - " + "[deleted]" + "         " + "(none)" + "     " + "->" + " " + "origin/old"

  const Progress: seq<string> := [
    "Fetching origin",
    "remote: " + "Enumerating objects: " + "14, done.",
    "remote: " + "Counting objects: " + "100% (14/14), done.",
    "remote: " + "Compressing objects: " + "100% (11/11), done.",
    "remote: " + "Total 14 (delta 3), " + "reused 12 (delta 1), " + "pack-reused 0",
    "Unpacking objects: " + "100% (14/14), done.",
    "From " + "github.com:remram44/doublegit"
  ]

  const Transcript: seq<string> := Progress + [NewBranchLine, FastForwardLine, PrunedLine]

  /** Progress and header lines do not start with a space and carry no event. */
  lemma ProgressLineSkipped(line: string)
    requires |line| > 0 && line[0] != ' '
    ensures LineEvent(line).None?
  {
    assert ScanHead(line).None?;
  }

  lemma ProgressSkipped()
    ensures forall i :: 0 <= i < |Progress| ==> LineEvent(Progress[i]).None?
  {
    forall i | 0 <= i < |Progress|
      ensures |Progress[i]| > 0 && Progress[i][0] != ' '
    {
      assert Progress[i] in Progress;
    }
    forall i | 0 <= i < |Progress|
      ensures LineEvent(Progress[i]).None?
    {
      ProgressLineSkipped(Progress[i]);
    }
  }

  lemma ProgressNoBreaks()
    ensures forall i :: 0 <= i < |Progress| ==> NoBreak(Progress[i])
  {
    FetchingNoBreak();
    EnumeratingNoBreak();
    CountingNoBreak();
    CompressingNoBreak();
    TotalNoBreak();
    UnpackingNoBreak();
    FromNoBreak();
    forall i | 0 <= i < |Progress|
      ensures NoBreak(Progress[i])
    {
      assert Progress[i] in Progress;
    }
  }

  lemma FetchingNoBreak() ensures NoBreak(Progress[0]) {}
  lemma EnumeratingNoBreak() ensures NoBreak(Progress[1]) {
    assert NoBreak("remote: ") && NoBreak("Enumerating objects: ") && NoBreak("14, done.");
  }
  lemma CountingNoBreak() ensures NoBreak(Progress[2]) {
    assert NoBreak("remote: ") && NoBreak("Counting objects: ") && NoBreak("100% (14/14), done.");
  }
  lemma CompressingNoBreak() ensures NoBreak(Progress[3]) {
    assert NoBreak("remote: ") && NoBreak("Compressing objects: ") && NoBreak("100% (11/11), done.");
  }
  lemma TotalNoBreak() ensures NoBreak(Progress[4]) {
    assert NoBreak("remote: ") && NoBreak("Total 14 (delta 3), ") && NoBreak("reused 12 (delta 1), ") && NoBreak("pack-reused 0");
  }
  lemma UnpackingNoBreak() ensures NoBreak(Progress[5]) {
    assert NoBreak("Unpacking objects: ") && NoBreak("100% (14/14), done.");
  }
  lemma FromNoBreak() ensures NoBreak(Progress[6]) {
    assert NoBreak("From ") && NoBreak("github.com:remram44/doublegit");
  }

  lemma NewBranchNoBreak() ensures NoBreak(NewBranchLine) {
    assert NoBreak(" * ") && NoBreak("[new branch]") && NoBreak("      ") && NoBreak("master") && NoBreak("     ");
    assert NoBreak("->") && NoBreak(" ") && NoBreak("origin/master");
  }
  lemma FastForwardNoBreak() ensures NoBreak(FastForwardLine) {
    assert NoBreak("   ") && NoBreak("673b728..466e90b") && NoBreak("  ") && NoBreak("devel") && NoBreak("      ");
    assert NoBreak("->") && NoBreak(" ") && NoBreak("origin/devel");
  }
  lemma PrunedNoBreak() ensures NoBreak(PrunedLine) {
    assert NoBreak(" - ") && NoBreak("[deleted]") && NoBreak("         ") && NoBreak("(none)") && NoBreak("     ");
    assert NoBreak("->") && NoBreak(" ") && NoBreak("origin/old");
  }

  /** No transcript line holds a line break. */
  lemma TranscriptNoBreaks()
    ensures forall i :: 0 <= i < |Transcript| ==> NoBreak(Transcript[i])
  {
    ProgressNoBreaks();
    NewBranchNoBreak();
    FastForwardNoBreak();
    PrunedNoBreak();
    forall i | 0 <= i < |Transcript|
      ensures NoBreak(Transcript[i])
    {
      if i < |Progress| {
        assert Transcript[i] == Progress[i];
      } else {
        assert Transcript[i] == [NewBranchLine, FastForwardLine, PrunedLine][i - |Progress|];
      }
    }
  }

  /**
   * A bracketed summary holding one space, `[a b]`, is not taken by the
   * word alternative when the source does not begin with `-`: that
   * alternative reads `[a` as the summary and `b]` as the source, and then
   * finds the real source where it needs `->`.
   */
  lemma OneSpaceBracketNotWord(f: RefLine, a: string, b: string)
    requires WellFormed(f) && f.summary == Bracketed(a + (" " + b))
    requires NoSpace(a) && IsWord(b)
    requires f.arrow.source[0] != '-'
    ensures ScanWordAlt(Render(f)).None?
  {
    ScanHeadOf(f);
    var ar := f.arrow;
    var y := ar.source + (Spaces(ar.gap3) + ("->" + (Spaces(ar.gap4) + (ar.dest + ar.tail))));
    var x := Spaces(ar.gap2) + y;
    assert ArrowText(ar) == x;
    var w := "[" + a;
    var src := b + "]";
    BracketRegroup(a, b, x);
    WordsAroundSpace(a, b);
    ScanWordOf(w, Spaces(1) + (src + x));
    ArrowTokenMissing(1, src, ar.gap2, y);
  }

  lemma BracketRegroup(a: string, b: string, x: string)
    ensures SummaryText(Bracketed(a + (" " + b))) + x == ("[" + a) + (Spaces(1) + ((b + "]") + x))
  {
    assert Spaces(1) == " ";
  }

  lemma WordsAroundSpace(a: string, b: string)
    requires NoSpace(a) && IsWord(b)
    ensures IsWord("[" + a) && IsWord(b + "]")
  {
    var w := "[" + a;
    forall i | 0 <= i < |w| ensures w[i] != ' ' {
      if i > 0 { assert w[i] == a[i - 1]; }
    }
    var src := b + "]";
    forall i | 0 <= i < |src| ensures src[i] != ' ' {
      if i < |b| { assert src[i] == b[i]; }
    }
  }

  lemma ArrowTokenMissing(g2: nat, w: string, g3: nat, x: string)
    requires g2 > 0 && IsWord(w) && g3 > 0
    requires |x| > 0 && x[0] != ' ' && x[0] != '-'
    ensures ScanArrow(Spaces(g2) + (w + (Spaces(g3) + x))).None?
  {
    ScanGapOf(g2, w + (Spaces(g3) + x));
    ScanWordOf(w, Spaces(g3) + x);
    ScanGapOf(g3, x);
  }

  const NewBranchFields := RefLine('*', 1, Bracketed("new branch"), Arrow(6, "master", 5, 1, "origin/master", ""))

  lemma NewBranchRender()
    ensures WellFormed(NewBranchFields) && Render(NewBranchFields) == NewBranchLine
  {
    assert Spaces(1) == " ";
    assert Spaces(5) == "     ";
    assert Spaces(6) == "      ";
    assert [' ', '*'] + " " == " * ";
    assert "[" + ("new branch" + "]") == "[new branch]";
  }

  lemma NewBranchEvent()
    ensures LineEvent(NewBranchLine) == Some(Event(New, "origin/master"))
  {
    NewBranchRender();
    assert "new branch" == "new" + (" " + "branch");
    OneSpaceBracketNotWord(NewBranchFields, "new", "branch");
    ScanBracketComplete(NewBranchFields);
  }

  const FastForwardFields := RefLine(' ', 1, Word("673b728..466e90b"), Arrow(2, "devel", 6, 1, "origin/devel", ""))

  lemma FastForwardRender()
    ensures WellFormed(FastForwardFields) && Render(FastForwardFields) == FastForwardLine
  {
    assert Spaces(1) == " ";
    assert Spaces(2) == "  ";
    assert Spaces(6) == "      ";
    assert [' ', ' '] + " " == "   ";
  }

  lemma FastForwardEvent()
    ensures LineEvent(FastForwardLine) == Some(Event(Changed, "origin/devel"))
  {
    FastForwardRender();
    ScanComplete(FastForwardFields);
  }

  const PrunedFields := RefLine('-', 1, Word("[deleted]"), Arrow(9, "(none)", 5, 1, "origin/old", ""))

  lemma PrunedRender()
    ensures WellFormed(PrunedFields) && Render(PrunedFields) == PrunedLine
  {
    assert Spaces(1) == " ";
    assert Spaces(5) == "     ";
    assert Spaces(9) == "         ";
    assert [' ', '-'] + " " == " - ";
  }

  lemma PrunedEvent()
    ensures LineEvent(PrunedLine) == Some(Event(Removed, "origin/old"))
  {
    PrunedRender();
    ScanComplete(PrunedFields);
  }

  function NoEvents(n: nat): seq<Option<Event>> {
    seq(n, _ => None)
  }

  lemma {:induction false} NonePicked(n: nat, k: Kind)
    ensures Picked(NoEvents(n), k) == []
  {
    if n > 0 {
      assert NoEvents(n)[..n - 1] == NoEvents(n - 1);
      NonePicked(n - 1, k);
    }
  }

  /**
   * Lines without events followed by three event lines classify to the three
   * events' refs.
   */
  lemma ClassifyThree(p: seq<string>, l1: string, l2: string, l3: string, r1: string, r2: string, r3: string)
    requires forall i :: 0 <= i < |p| ==> LineEvent(p[i]).None?
    requires LineEvent(l1) == Some(Event(New, r1))
    requires LineEvent(l2) == Some(Event(Changed, r2))
    requires LineEvent(l3) == Some(Event(Removed, r3))
    ensures Classify(p + [l1, l2, l3]) == Ok(FetchRefs([r1], [r2], [r3]))
  {
    var tail := [Some(Event(New, r1)), Some(Event(Changed, r2)), Some(Event(Removed, r3))];
    EventsAppend(p, [l1, l2, l3]);
    EventsThree(l1, l2, l3);
    EventsNone(p);
    ThreeClassified(|p|, r1, r2, r3);
  }

  lemma EventsThree(l1: string, l2: string, l3: string)
    ensures Events([l1, l2, l3]) == [LineEvent(l1), LineEvent(l2), LineEvent(l3)]
  {
    var lines := [l1, l2, l3];
    var evs := Events(lines);
    EventsAt(lines, 0);
    EventsAt(lines, 1);
    EventsAt(lines, 2);
    assert evs == [evs[0], evs[1], evs[2]];
  }

  lemma EventsNone(p: seq<string>)
    requires forall i :: 0 <= i < |p| ==> LineEvent(p[i]).None?
    ensures Events(p) == NoEvents(|p|)
  {
    var evs := Events(p);
    forall i | 0 <= i < |p|
      ensures evs[i] == NoEvents(|p|)[i]
    {
      EventsAt(p, i);
    }
    assert |evs| == |NoEvents(|p|)|;
  }

  lemma ThreeClassified(n: nat, r1: string, r2: string, r3: string)
    ensures ClassifyEvents(NoEvents(n) + [Some(Event(New, r1)), Some(Event(Changed, r2)), Some(Event(Removed, r3))])
         == Ok(FetchRefs([r1], [r2], [r3]))
  {
    var tail := [Some(Event(New, r1)), Some(Event(Changed, r2)), Some(Event(Removed, r3))];
    var evs := NoEvents(n) + tail;
    assert FirstReject(evs).None?;
    forall k: Kind
      ensures Picked(evs, k) == Picked(tail, k)
    {
      PickedAppend(NoEvents(n), tail, k);
      NonePicked(n, k);
    }
    PickedThree(tail);
    assert Picked(evs, New) == [r1];
    assert Picked(evs, Changed) == [r2];
    assert Picked(evs, Removed) == [r3];
  }

  lemma PickedThree(t: seq<Option<Event>>)
    requires |t| == 3
    ensures forall k: Kind :: Picked(t, k) == Contribution(t[0], k) + Contribution(t[1], k) + Contribution(t[2], k)
  {
    forall k: Kind
      ensures Picked(t, k) == Contribution(t[0], k) + Contribution(t[1], k) + Contribution(t[2], k)
    {
      assert t[..2][..1] == [t[0]];
      assert [t[0]][..0] == [];
      assert Picked([t[0]], k) == Contribution(t[0], k);
      assert Picked(t[..2], k) == Picked([t[0]], k) + Contribution(t[1], k);
    }
  }

  /** The transcript yields `new = [origin/master]`, `changed = [origin/devel]`, `removed = [origin/old]`. */
  lemma TranscriptClassified()
    ensures Classify(Transcript) == Ok(FetchRefs(["origin/master"], ["origin/devel"], ["origin/old"]))
  {
    ProgressSkipped();
    NewBranchEvent();
    FastForwardEvent();
    PrunedEvent();
    ClassifyThree(Progress, NewBranchLine, FastForwardLine, PrunedLine, "origin/master", "origin/devel", "origin/old");
  }

  /** The same outcome from the raw stderr text, each line ended by a newline. */
  lemma TranscriptOutputClassified()
    ensures Classify(SplitLines(JoinLines(Transcript))) == Ok(FetchRefs(["origin/master"], ["origin/devel"], ["origin/old"]))
  {
    TranscriptNoBreaks();
    SplitJoin(Transcript);
    TranscriptClassified();
  }
}

=== FILE: ledger.dfy ===
/**
 * The `refs` table both implementations keep: one row per period during
 * which a ref pointed at one commit. A cycle first closes, for every
 * removed or changed ref, the row with the greatest `from_date` for that
 * ref (`UPDATE ... ORDER BY from_date DESC LIMIT 1`), then appends one
 * open row per changed or new ref (doublegit.py:116-136,
 * src/git/mod.rs:79-100).
 *
 * The table is a sequence of rows in insertion order. The module is
 * generic in the key that identifies a ref (Python: remote and name;
 * Rust: name only) and in the payload stored with it (Python: the sha;
 * Rust: the sha and the tag flag). Times are the ordered `DATETIME`
 * values, modelled as integers.
 */
module Ledger {
  import opened Wrappers

  type Time = int

  datatype Row<K, D> = Row(key: K, from: Time, to: Option<Time>, data: D)

  predicate IsOpen<K, D>(r: Row<K, D>) {
    r.to.None?
  }

  predicate HasKey<K(==), D>(rows: seq<Row<K, D>>, k: K) {
    exists i :: 0 <= i < |rows| && rows[i].key == k
  }

  predicate HasOpen<K(==), D>(rows: seq<Row<K, D>>, k: K) {
    exists i :: 0 <= i < |rows| && rows[i].key == k && IsOpen(rows[i])
  }

  /**
   * Row `i` is the one `ORDER BY from_date DESC LIMIT 1` selects for key
   * `k`: no row of `k` starts later, and among rows starting at the same
   * time it is the first inserted. SQL leaves the order of ties open; the
   * first-inserted choice is the table-scan order.
   */
  predicate IsLatest<K(==), D>(rows: seq<Row<K, D>>, k: K, i: nat) {
    && i < |rows| && rows[i].key == k
    && (forall j :: 0 <= j < |rows| && rows[j].key == k ==> rows[j].from <= rows[i].from)
    && (forall j :: 0 <= j < i && rows[j].key == k ==> rows[j].from < rows[i].from)
  }

  /** At most one row is the latest one of a key. */
  lemma LatestUnique<K, D>(rows: seq<Row<K, D>>, k: K, i: nat, j: nat)
    requires IsLatest(rows, k, i) && IsLatest(rows, k, j)
    ensures i == j
  {
  }

  /** The row the `UPDATE` of a close selects, if the key has any row. */
  function Latest<K(==), D>(rows: seq<Row<K, D>>, k: K): (r: Option<nat>)
    ensures r.None? <==> !HasKey(rows, k)
    ensures r.Some? ==> IsLatest(rows, k, r.value)
  {
    if |rows| == 0 then None
    else
      var n := |rows| - 1;
      var front := rows[..n];
      assert forall j :: 0 <= j < n ==> front[j] == rows[j];
      var p := Latest(front, k);
      if rows[n].key == k && (p.None? || rows[p.value].from < rows[n].from) then Some(n)
      else
        assert p.None? ==> rows[n].key != k;
        p
  }

  /** `Latest` finds every row that satisfies the declarative description. */
  lemma LatestIs<K, D>(rows: seq<Row<K, D>>, k: K, i: nat)
    requires IsLatest(rows, k, i)
    ensures Latest(rows, k) == Some(i)
  {
    LatestUnique(rows, k, i, Latest(rows, k).value);
  }

  /** Two tables with the same keys and start times in the same order. */
  predicate SameShape<K(==), D(==)>(a: seq<Row<K, D>>, b: seq<Row<K, D>>) {
    |a| == |b| && forall i :: 0 <= i < |a| ==> a[i].key == b[i].key && a[i].from == b[i].from && a[i].data == b[i].data
  }

  /** Which row is latest depends only on keys and start times. */
  lemma LatestSameShape<K, D>(a: seq<Row<K, D>>, b: seq<Row<K, D>>, k: K)
    requires SameShape(a, b)
    ensures Latest(a, k) == Latest(b, k)
  {
    if Latest(a, k).Some? {
      LatestIs(b, k, Latest(a, k).value);
    } else {
      assert !HasKey(b, k);
    }
  }

  /** One `UPDATE refs SET to_date=? ... LIMIT 1` for key `k`. */
  function CloseLatest<K(==), D>(rows: seq<Row<K, D>>, k: K, t: Time): (r: seq<Row<K, D>>)
    ensures SameShape(rows, r)
    ensures forall i :: 0 <= i < |rows| ==> r[i] == (if Latest(rows, k) == Some(i) then rows[i].(to := Some(t)) else rows[i])
  {
    match Latest(rows, k)
    case None => rows
    case Some(i) => rows[i := rows[i].(to := Some(t))]
  }

  /**
   * The closing loop. Exactly the rows that are the latest of a key in
   * `keys` get their `to` set to `t`, whether or not they were closed
   * already; every other row is unchanged.
   */
  function CloseAll<K(==), D>(rows: seq<Row<K, D>>, keys: seq<K>, t: Time): (r: seq<Row<K, D>>)
    ensures SameShape(rows, r)
    ensures forall i :: 0 <= i < |rows| ==>
      r[i] == (if rows[i].key in keys && Latest(rows, rows[i].key) == Some(i) then rows[i].(to := Some(t)) else rows[i])
    decreases |keys|
  {
    if |keys| == 0 then rows
    else
      var c := CloseLatest(rows, keys[0], t);
      var r := CloseAll(c, keys[1..], t);
      forall i | 0 <= i < |rows|
        ensures r[i] == (if rows[i].key in keys && Latest(rows, rows[i].key) == Some(i) then rows[i].(to := Some(t)) else rows[i])
      {
        LatestSameShape(rows, c, rows[i].key);
        assert rows[i].key in keys <==> rows[i].key == keys[0] || rows[i].key in keys[1..];
      }
      r
  }

  /** The inserting loop: one open row starting at `t` per entry, in order. */
  function OpenAll<K, D>(rows: seq<Row<K, D>>, entries: seq<(K, D)>, t: Time): (r: seq<Row<K, D>>)
    ensures |r| == |rows| + |entries| && r[..|rows|] == rows
    ensures forall j :: 0 <= j < |entries| ==> r[|rows| + j] == Row(entries[j].0, t, None, entries[j].1)
  {
    rows + seq(|entries|, j requires 0 <= j < |entries| => Row(entries[j].0, t, None, entries[j].1))
  }

  /**
   * A whole ledger update at time `t`: close the latest row of every key
   * in `closeKeys`, then append an open row for every entry of `opens`.
   */
  function Update<K(==), D>(rows: seq<Row<K, D>>, closeKeys: seq<K>, opens: seq<(K, D)>, t: Time): (r: seq<Row<K, D>>)
    ensures |r| == |rows| + |opens|
    ensures SameShape(rows, r[..|rows|])
    ensures forall i :: 0 <= i < |rows| && rows[i].key !in closeKeys ==> r[i] == rows[i]
    ensures forall i :: 0 <= i < |rows| && rows[i].key in closeKeys ==>
      r[i].to == (if Latest(rows, rows[i].key) == Some(i) then Some(t) else rows[i].to)
    ensures forall j :: 0 <= j < |opens| ==> r[|rows| + j] == Row(opens[j].0, t, None, opens[j].1)
  {
    var c := CloseAll(rows, closeKeys, t);
    var r := OpenAll(c, opens, t);
    assert r[..|rows|] == c;
    r
  }

  /** Every open row is the latest row of its key. */
  predicate OpenIsLatest<K(==), D>(rows: seq<Row<K, D>>) {
    forall i :: 0 <= i < |rows| && IsOpen(rows[i]) ==> IsLatest(rows, rows[i].key, i)
  }

  /** Under `OpenIsLatest` a key has at most one open row. */
  lemma SingleOpen<K, D>(rows: seq<Row<K, D>>, i: nat, j: nat)
    requires OpenIsLatest(rows)
    requires i < |rows| && j < |rows| && IsOpen(rows[i]) && IsOpen(rows[j])
    requires rows[i].key == rows[j].key
    ensures i == j
  {
    LatestUnique(rows, rows[i].key, i, j);
  }

  predicate StartsBefore<K, D>(rows: seq<Row<K, D>>, t: Time) {
    forall i :: 0 <= i < |rows| ==> rows[i].from < t
  }

  predicate DistinctKeys<K(==), D>(opens: seq<(K, D)>) {
    forall i, j :: 0 <= i < j < |opens| ==> opens[i].0 != opens[j].0
  }

  /**
   * The single-open invariant survives an update at a time later than every
   * existing row, provided the update opens each key at most once and
   * closes every key it reopens that still has an open row.
   */
  lemma UpdateKeepsOpenIsLatest<K, D>(rows: seq<Row<K, D>>, closeKeys: seq<K>, opens: seq<(K, D)>, t: Time)
    requires OpenIsLatest(rows) && StartsBefore(rows, t)
    requires DistinctKeys(opens)
    requires forall j :: 0 <= j < |opens| && HasOpen(rows, opens[j].0) ==> opens[j].0 in closeKeys
    ensures OpenIsLatest(Update(rows, closeKeys, opens, t))
  {
    var r := Update(rows, closeKeys, opens, t);
    forall i | 0 <= i < |r| && IsOpen(r[i])
      ensures IsLatest(r, r[i].key, i)
    {
      OpenRowIsLatest(rows, closeKeys, opens, t, i);
    }
  }

  /**
   * Opening one key twice in one update leaves the second new row open but
   * not the key's latest row, so `UpdateKeepsOpenIsLatest` cannot drop
   * `DistinctKeys`.
   */
  lemma OpenTwiceBreaks<K, D>(rows: seq<Row<K, D>>, closeKeys: seq<K>, opens: seq<(K, D)>, t: Time, a: nat, b: nat)
    requires a < b < |opens| && opens[a].0 == opens[b].0
    ensures var r := Update(rows, closeKeys, opens, t);
            IsOpen(r[|rows| + b]) && !IsLatest(r, r[|rows| + b].key, |rows| + b)
  {
    var r := Update(rows, closeKeys, opens, t);
    assert r[|rows| + a].key == r[|rows| + b].key && r[|rows| + a].from == r[|rows| + b].from;
  }

  /**
   * Opening a key that still has an open row `i`, without closing it,
   * leaves row `i` open but no longer the key's latest row, so
   * `UpdateKeepsOpenIsLatest` cannot drop its reopen hypothesis.
   */
  lemma ReopenWithoutCloseBreaks<K, D>(rows: seq<Row<K, D>>, closeKeys: seq<K>, opens: seq<(K, D)>, t: Time, i: nat, j: nat)
    requires StartsBefore(rows, t)
    requires i < |rows| && j < |opens| && rows[i].key == opens[j].0 && IsOpen(rows[i]) && opens[j].0 !in closeKeys
    ensures var r := Update(rows, closeKeys, opens, t);
            IsOpen(r[i]) && !IsLatest(r, r[i].key, i)
  {
    var r := Update(rows, closeKeys, opens, t);
    assert r[i] == rows[i];
    assert r[|rows| + j].key == r[i].key && r[|rows| + j].from > r[i].from;
  }

  /** A row of the same key that starts later keeps row `i` from being latest. */
  lemma LaterRowUnseats<K, D>(rows: seq<Row<K, D>>, i: nat, n: nat)
    requires i < |rows| && n < |rows| && rows[n].key == rows[i].key && rows[n].from > rows[i].from
    ensures !IsLatest(rows, rows[i].key, i)
  {
  }

  lemma OpenRowIsLatest<K, D>(rows: seq<Row<K, D>>, closeKeys: seq<K>, opens: seq<(K, D)>, t: Time, i: nat)
    requires OpenIsLatest(rows) && StartsBefore(rows, t)
    requires DistinctKeys(opens)
    requires forall j :: 0 <= j < |opens| && HasOpen(rows, opens[j].0) ==> opens[j].0 in closeKeys
    requires i < |rows| + |opens| && IsOpen(Update(rows, closeKeys, opens, t)[i])
    ensures IsLatest(Update(rows, closeKeys, opens, t), Update(rows, closeKeys, opens, t)[i].key, i)
  {
    if i < |rows| {
      OldOpenStaysLatest(rows, closeKeys, opens, t, i);
    } else {
      NewRowIsLatest(rows, closeKeys, opens, t, i);
    }
  }

  /** After an update at `t` no row starts later than `t`. */
  lemma UpdateStartsBy<K, D>(rows: seq<Row<K, D>>, closeKeys: seq<K>, opens: seq<(K, D)>, t: Time)
    requires StartsBefore(rows, t)
    ensures StartsBefore(Update(rows, closeKeys, opens, t), t + 1)
  {
    var r := Update(rows, closeKeys, opens, t);
    forall i | 0 <= i < |r|
      ensures r[i].from < t + 1
    {
      if i < |rows| {
        assert r[..|rows|][i] == r[i];
      }
    }
  }

  lemma OldOpenStaysLatest<K, D>(rows: seq<Row<K, D>>, closeKeys: seq<K>, opens: seq<(K, D)>, t: Time, i: nat)
    requires OpenIsLatest(rows)
    requires forall j :: 0 <= j < |opens| && HasOpen(rows, opens[j].0) ==> opens[j].0 in closeKeys
    requires i < |rows| && IsOpen(Update(rows, closeKeys, opens, t)[i])
    ensures IsLatest(Update(rows, closeKeys, opens, t), Update(rows, closeKeys, opens, t)[i].key, i)
  {
    var r := Update(rows, closeKeys, opens, t);
    var k := rows[i].key;
    assert r[..|rows|][i] == r[i];
    assert IsOpen(rows[i]);
    assert IsLatest(rows, k, i);
    LatestIs(rows, k, i);
    assert k !in closeKeys;
    assert HasOpen(rows, k);
    forall j | |rows| <= j < |r|
      ensures r[j].key != k
    {
      assert r[j].key == opens[j - |rows|].0;
    }
    forall m | 0 <= m < |rows|
      ensures r[m].key == rows[m].key && r[m].from == rows[m].from
    {
      assert r[..|rows|][m] == r[m];
    }
  }

  lemma NewRowIsLatest<K, D>(rows: seq<Row<K, D>>, closeKeys: seq<K>, opens: seq<(K, D)>, t: Time, i: nat)
    requires StartsBefore(rows, t)
    requires DistinctKeys(opens)
    requires |rows| <= i < |rows| + |opens|
    ensures IsLatest(Update(rows, closeKeys, opens, t), Update(rows, closeKeys, opens, t)[i].key, i)
  {
    var r := Update(rows, closeKeys, opens, t);
    assert r[i].key == opens[i - |rows|].0;
    forall m | 0 <= m < |rows|
      ensures r[m].from < t
    {
      assert r[..|rows|][m] == r[m];
    }
  }
}

=== FILE: py_update.dfy ===
/**
 * One run of Python's `update` (doublegit.py:88-151) on a mirror: fetch,
 * record the ref changes in the ledger, anchor every fetched commit and
 * prune redundant anchors, then commit.
 *
 * `git fetch` is its exit status and stderr text (`None` when it fails),
 * `git rev-parse` is the function `getSha` (`None` when it fails), and
 * ancestry is the relation `le`. `DATETIME()` is the one time `t` of the
 * run. Every failure the run can meet raises before the first anchor is
 * written and before `commit`, so a failed run leaves the ledger and the
 * anchor branches as they were. The fetch itself has by then moved and
 * pruned the remote-tracking refs, which this model does not hold.
 */
module PyUpdate {
  import opened Wrappers
  import opened FetchParse
  import opened RefNames
  import Ledger
  import opened Anchors

  /** A ledger key: the remote and the branch name (doublegit.py:100-106). */
  type Key = (string, string)

  type PyRow = Ledger.Row<Key, Sha>

  datatype Mirror = Mirror(ledger: seq<PyRow>, branches: set<Sha>)

  datatype PyError =
    | FetchFailed              // `git fetch` exits non-zero (doublegit.py:32-33)
    | Rejected(ref: string)    // a `!` line (doublegit.py:54-55)
    | NoRemote(ref: string)    // `ref.split('/', 1)` yields one part (doublegit.py:117,129)
    | RevParseFailed(ref: string)  // `git rev-parse` fails (doublegit.py:65)

  /**
   * `fetch(repository)`: a failed `git fetch` raises. Otherwise it raises
   * exactly when a stderr line is a `!` reject, naming the first one, and
   * each list holds exactly the refs of the lines of its kind, in the
   * order the parsing loop collects them.
   */
  function Fetch(output: Option<string>): (r: Result<FetchRefs, PyError>)
    ensures r == Err(FetchFailed) <==> output.None?
    ensures output.Some? ==> var lines := SplitLines(output.value);
      r.Ok? <==> forall i :: 0 <= i < |lines| ==> !IsReject(LineEvent(lines[i]))
    ensures output.Some? ==> var lines := SplitLines(output.value);
      r.Err? ==> r.error.Rejected? && exists i :: 0 <= i < |lines| && LineEvent(lines[i]) == Some(Event(Reject, r.error.ref))
                                                && forall j :: 0 <= j < i ==> !IsReject(LineEvent(lines[j]))
    ensures output.Some? ==> var lines := SplitLines(output.value);
      r.Ok? ==> forall x :: (x in r.value.newRefs <==> Carries(lines, New, x))
                         && (x in r.value.changed <==> Carries(lines, Changed, x))
                         && (x in r.value.removed <==> Carries(lines, Removed, x))
    ensures output.Some? ==> ((r.Ok? <==> Classify(SplitLines(output.value)).Ok?)
                          && (r.Ok? ==> r.value == Classify(SplitLines(output.value)).value))
  {
    match output
    case None => Err(FetchFailed)
    case Some(err) =>
      var lines := SplitLines(err);
      FetchLinesOk(lines);
      FetchLinesErr(lines);
      forall x {
        FetchLinesRefs(lines, x);
      }
      FetchEvents(Events(lines))
  }

  /** `FetchEvents` raises exactly when some line is a reject. */
  lemma FetchLinesOk(lines: seq<string>)
    ensures FetchEvents(Events(lines)).Ok? <==> forall i :: 0 <= i < |lines| ==> !IsReject(LineEvent(lines[i]))
  {
    EventsPointwise(lines);
  }

  /** `FetchEvents` names the first rejected line's ref. */
  lemma FetchLinesErr(lines: seq<string>)
    ensures var r := FetchEvents(Events(lines));
      r.Err? ==> r.error.Rejected? && exists i :: 0 <= i < |lines| && LineEvent(lines[i]) == Some(Event(Reject, r.error.ref))
                                                && forall j :: 0 <= j < i ==> !IsReject(LineEvent(lines[j]))
  {
    var evs := Events(lines);
    if FirstReject(evs).Some? {
      var i := FirstReject(evs).value;
      assert FetchEvents(evs) == Err(Rejected(evs[i].value.ref));
      EventsAt(lines, i);
      forall j | 0 <= j < i
        ensures !IsReject(LineEvent(lines[j]))
      {
        EventsAt(lines, j);
      }
    }
  }

  /** Each list `FetchEvents` returns holds exactly the refs of its kind's lines. */
  lemma FetchLinesRefs(lines: seq<string>, x: string)
    ensures var r := FetchEvents(Events(lines));
      r.Ok? ==> ((x in r.value.newRefs <==> Carries(lines, New, x))
              && (x in r.value.changed <==> Carries(lines, Changed, x))
              && (x in r.value.removed <==> Carries(lines, Removed, x)))
  {
    PickedLines(lines, New, x);
    PickedLines(lines, Changed, x);
    PickedLines(lines, Removed, x);
  }

  /**
   * The parsing half of `fetch`, over the line events of its stderr: it
   * raises exactly when some line is a `!` reject, naming the first one,
   * and otherwise each list holds exactly the refs of its kind's lines.
   */
  function FetchEvents(evs: seq<Option<Event>>): (r: Result<FetchRefs, PyError>)
    ensures r.Ok? <==> forall i :: 0 <= i < |evs| ==> !IsReject(evs[i])
    ensures r.Err? ==> r.error.Rejected? && (exists i :: 0 <= i < |evs| && evs[i] == Some(Event(Reject, r.error.ref))
                                                  && forall j :: 0 <= j < i ==> !IsReject(evs[j]))
    ensures r.Ok? ==> forall x :: (x in r.value.newRefs <==> exists i :: 0 <= i < |evs| && evs[i] == Some(Event(New, x)))
                               && (x in r.value.changed <==> exists i :: 0 <= i < |evs| && evs[i] == Some(Event(Changed, x)))
                               && (x in r.value.removed <==> exists i :: 0 <= i < |evs| && evs[i] == Some(Event(Removed, x)))
  {
    assert forall k: Kind, x :: x in Picked(evs, k) <==> exists i :: 0 <= i < |evs| && evs[i] == Some(Event(k, x)) by {
      forall k: Kind, x: string {
        PickedMembership(evs, k, x);
      }
    }
    match ClassifyEvents(evs)
    case Ok(f) => Ok(f)
    case Err(RefRejected(x)) =>
      var i := FirstReject(evs).value;
      assert IsReject(evs[i]);
      Err(Rejected(x))
  }

  /** The keys the closing loop updates, failing at the first ref without `/`. */
  function CloseKeys(refs: seq<string>): (r: Result<seq<Key>, PyError>)
    ensures r.Ok? <==> forall i :: 0 <= i < |refs| ==> '/' in refs[i]
    ensures r.Ok? ==> |r.value| == |refs| && forall i :: 0 <= i < |refs| ==> SplitRef(refs[i]) == Some(r.value[i])
    ensures r.Err? ==> exists i :: 0 <= i < |refs| && '/' !in refs[i] && r.error == NoRemote(refs[i])
                                && forall j :: 0 <= j < i ==> '/' in refs[j]
  {
    var i := FirstFailure(refs, (r: string) => '/' in r);
    if i < |refs| then Err(NoRemote(refs[i]))
    else Ok(seq(|refs|, j requires 0 <= j < |refs| => SplitRef(refs[j]).value))
  }

  /** The inserting loop resolves each ref with `git rev-parse`, then splits it. */
  predicate Resolves(ref: string, getSha: string -> Option<Sha>) {
    getSha(ref).Some? && '/' in ref
  }

  /** The error the inserting loop raises on a ref that does not resolve. */
  function ResolveError(ref: string, getSha: string -> Option<Sha>): PyError {
    if getSha(ref).None? then RevParseFailed(ref) else NoRemote(ref)
  }

  /** The rows the inserting loop adds, as (key, sha), failing at the first ref that does not resolve. */
  function Entries(refs: seq<string>, getSha: string -> Option<Sha>): (r: Result<seq<(Key, Sha)>, PyError>)
    ensures r.Ok? <==> forall i :: 0 <= i < |refs| ==> Resolves(refs[i], getSha)
    ensures r.Ok? ==> |r.value| == |refs| && forall i :: 0 <= i < |refs| ==>
      getSha(refs[i]) == Some(r.value[i].1) && SplitRef(refs[i]) == Some(r.value[i].0)
    ensures r.Err? ==> exists i :: 0 <= i < |refs| && !Resolves(refs[i], getSha) && r.error == ResolveError(refs[i], getSha)
                                && forall j :: 0 <= j < i ==> Resolves(refs[j], getSha)
  {
    var i := FirstFailure(refs, (r: string) => Resolves(r, getSha));
    if i < |refs| then Err(ResolveError(refs[i], getSha))
    else Ok(seq(|refs|, j requires 0 <= j < |refs| => (SplitRef(refs[j]).value, getSha(refs[j]).value)))
  }

  function Shas(entries: seq<(Key, Sha)>): (s: seq<Sha>)
    ensures |s| == |entries| && forall i :: 0 <= i < |entries| ==> s[i] == entries[i].1
  {
    seq(|entries|, i requires 0 <= i < |entries| => entries[i].1)
  }

  /** The staged effect of a run, before `commit`. */
  function Run(m: Mirror, output: Option<string>, getSha: string -> Option<Sha>, le: Ancestry, t: Ledger.Time): Result<Mirror, PyError> {
    var f :- Fetch(output);
    var keys :- CloseKeys(f.removed + f.changed);
    var entries :- Entries(f.changed + f.newRefs, getSha);
    Ok(Mirror(Ledger.Update(m.ledger, keys, entries, t), AnchorsPy(m.branches, Shas(entries), le)))
  }

  /** The mirror after a run, and the exception it raised if any. */
  datatype Outcome = Outcome(mirror: Mirror, error: Option<PyError>)

  /** `update(repository)`: the staged effect is committed only when nothing raised. */
  function Update(m: Mirror, output: Option<string>, getSha: string -> Option<Sha>, le: Ancestry, t: Ledger.Time): (o: Outcome)
    ensures o.error.Some? ==> o.mirror == m
    ensures o.error == Some(FetchFailed) <==> output.None?
    ensures o.error.None? ==> output.Some? && Classify(SplitLines(output.value)).Ok?
  {
    match Run(m, output, getSha, le, t)
    case Ok(m2) => Outcome(m2, None)
    case Err(e) => Outcome(m, Some(e))
  }

  /**
   * Proof step only: unfolds `Update` to the values a successful run
   * committed, for the lemmas below. It states no property of its own.
   */
  lemma Staged(m: Mirror, err: string, getSha: string -> Option<Sha>, le: Ancestry, t: Ledger.Time)
    requires Update(m, Some(err), getSha, le, t).error.None?
    ensures Classify(SplitLines(err)).Ok?
    ensures var f := Classify(SplitLines(err)).value;
            && CloseKeys(f.removed + f.changed).Ok?
            && Entries(f.changed + f.newRefs, getSha).Ok?
            && Update(m, Some(err), getSha, le, t).mirror
               == Mirror(Ledger.Update(m.ledger, CloseKeys(f.removed + f.changed).value, Entries(f.changed + f.newRefs, getSha).value, t),
                         AnchorsPy(m.branches, Shas(Entries(f.changed + f.newRefs, getSha).value), le))
  {
  }

  /** Every key the closing loop updates is the key of a removed or changed ref. */
  lemma KeyOfClosing(refs: seq<string>, k: Key)
    requires CloseKeys(refs).Ok? && k in CloseKeys(refs).value
    ensures exists r :: r in refs && SplitRef(r) == Some(k)
  {
    var keys := CloseKeys(refs).value;
    var j :| 0 <= j < |keys| && keys[j] == k;
    assert refs[j] in refs;
  }

  /** A `!` line aborts the run before anything is written. */
  lemma RejectAborts(m: Mirror, err: string, getSha: string -> Option<Sha>, le: Ancestry, t: Ledger.Time, x: string)
    requires Classify(SplitLines(err)) == Err(RefRejected(x))
    ensures Update(m, Some(err), getSha, le, t) == Outcome(m, Some(Rejected(x)))
  {
  }

  /** A ref without `/` among the removed or changed refs aborts the run. */
  lemma NoRemoteAborts(m: Mirror, err: string, getSha: string -> Option<Sha>, le: Ancestry, t: Ledger.Time, i: nat)
    requires Classify(SplitLines(err)).Ok?
    requires var f := Classify(SplitLines(err)).value; i < |f.removed + f.changed| && '/' !in (f.removed + f.changed)[i]
    ensures Update(m, Some(err), getSha, le, t).mirror == m
    ensures Update(m, Some(err), getSha, le, t).error.Some?
  {
  }

  /**
   * The ledger after a successful run: every row keeps its key, start and
   * sha; rows of refs that were neither removed nor changed are untouched;
   * and one open row starting at `t` is appended per changed or new ref,
   * in order, holding the sha `git rev-parse` gave.
   */
  lemma UpdateLedger(m: Mirror, err: string, getSha: string -> Option<Sha>, le: Ancestry, t: Ledger.Time)
    requires Update(m, Some(err), getSha, le, t).error.None?
    ensures var f := Classify(SplitLines(err)).value;
            var refs := f.changed + f.newRefs;
            var rows := Update(m, Some(err), getSha, le, t).mirror.ledger;
            && |rows| == |m.ledger| + |refs|
            && Ledger.SameShape(m.ledger, rows[..|m.ledger|])
            && (forall i :: 0 <= i < |m.ledger| && (forall r :: r in f.removed + f.changed ==> SplitRef(r) != Some(m.ledger[i].key))
                  ==> rows[i] == m.ledger[i])
            && (forall j :: 0 <= j < |refs| ==>
                  rows[|m.ledger| + j] == Ledger.Row(SplitRef(refs[j]).value, t, None, getSha(refs[j]).value))
  {
    Staged(m, err, getSha, le, t);
    var f := Classify(SplitLines(err)).value;
    var closing := f.removed + f.changed;
    var keys := CloseKeys(closing).value;
    forall i | 0 <= i < |m.ledger| && (forall r :: r in closing ==> SplitRef(r) != Some(m.ledger[i].key))
      ensures m.ledger[i].key !in keys
    {
      if m.ledger[i].key in keys {
        KeyOfClosing(closing, m.ledger[i].key);
      }
    }
  }

  /**
   * Retention safety of a successful run: the commit of every changed or
   * new ref is reachable from some anchor branch afterwards, and no branch
   * appears that was neither there before nor a fetched commit.
   */
  lemma UpdateRetains(m: Mirror, err: string, getSha: string -> Option<Sha>, le: Ancestry, t: Ledger.Time)
    requires PartialOrder(le)
    requires Update(m, Some(err), getSha, le, t).error.None?
    ensures var f := Classify(SplitLines(err)).value;
            var refs := f.changed + f.newRefs;
            var b := Update(m, Some(err), getSha, le, t).mirror.branches;
            && (forall j :: 0 <= j < |refs| ==> Covers(b, getSha(refs[j]).value, le))
            && (forall x :: x in b ==> x in m.branches || exists j :: 0 <= j < |refs| && getSha(refs[j]) == Some(x))
  {
    Staged(m, err, getSha, le, t);
    var f := Classify(SplitLines(err)).value;
    var refs := f.changed + f.newRefs;
    var entries := Entries(refs, getSha).value;
    var targets := Shas(entries);
    AnchorsPyRetains(m.branches, targets, le);
    var b := AnchorsPy(m.branches, targets, le);
    forall x | x in b && x !in m.branches
      ensures exists j :: 0 <= j < |refs| && getSha(refs[j]) == Some(x)
    {
      assert x in set s | s in targets;
      var j :| 0 <= j < |targets| && targets[j] == x;
    }
  }

  /**
   * The single-open invariant holds after a successful run when it held
   * before, the run is later than every row, no ref is reported twice, and
   * a ref reported new has no open row unless it was also removed.
   */
  lemma UpdateKeepsSingleOpen(m: Mirror, err: string, getSha: string -> Option<Sha>, le: Ancestry, t: Ledger.Time)
    requires Ledger.OpenIsLatest(m.ledger) && Ledger.StartsBefore(m.ledger, t)
    requires var f := Classify(SplitLines(err)); f.Ok? ==>
      var refs := f.value.changed + f.value.newRefs;
      && (forall i, j :: 0 <= i < j < |refs| ==> refs[i] != refs[j])
      && (forall r :: r in f.value.newRefs && SplitRef(r).Some? && Ledger.HasOpen(m.ledger, SplitRef(r).value) ==> r in f.value.removed)
    ensures Ledger.OpenIsLatest(Update(m, Some(err), getSha, le, t).mirror.ledger)
  {
    var o := Update(m, Some(err), getSha, le, t);
    if o.error.None? {
      Staged(m, err, getSha, le, t);
      var f := Classify(SplitLines(err)).value;
      var closing := f.removed + f.changed;
      var entries := Entries(f.changed + f.newRefs, getSha).value;
      EntriesDistinct(f.changed + f.newRefs, getSha);
      ReopenedAreClosed(m.ledger, f, getSha);
      Ledger.UpdateKeepsOpenIsLatest(m.ledger, CloseKeys(closing).value, entries, t);
    }
  }

  /**
   * Why `UpdateKeepsSingleOpen` needs its reopen hypothesis: a run that
   * reports a ref as new while its key still has an open row, and closes
   * no ref of that key, leaves the old row open but no longer latest, so
   * the key has two open rows. This happens after a failed run: its
   * `git fetch --prune` had already deleted the remote-tracking ref, so the
   * removal is not reported again, and when the branch comes back it is
   * reported as new.
   */
  lemma NewWhileOpenBreaks(m: Mirror, err: string, getSha: string -> Option<Sha>, le: Ancestry, t: Ledger.Time,
                           f: FetchRefs, k: nat, key: Key, i: nat)
    requires Classify(SplitLines(err)) == Ok(f)
    requires Update(m, Some(err), getSha, le, t).error.None?
    requires Ledger.StartsBefore(m.ledger, t)
    requires k < |f.newRefs| && SplitRef(f.newRefs[k]) == Some(key)
    requires forall q :: q in f.removed + f.changed ==> SplitRef(q) != Some(key)
    requires i < |m.ledger| && m.ledger[i].key == key && Ledger.IsOpen(m.ledger[i])
    ensures var rows := Update(m, Some(err), getSha, le, t).mirror.ledger;
            i < |rows| && Ledger.IsOpen(rows[i]) && !Ledger.IsLatest(rows, key, i)
  {
    Staged(m, err, getSha, le, t);
    var keys := CloseKeys(f.removed + f.changed).value;
    var entries := Entries(f.changed + f.newRefs, getSha).value;
    assert Update(m, Some(err), getSha, le, t).mirror.ledger == Ledger.Update(m.ledger, keys, entries, t);
    ReopenUnclosed(m.ledger, f, getSha, t, k, key, i);
  }

  lemma ReopenUnclosed(rows: seq<PyRow>, f: FetchRefs, getSha: string -> Option<Sha>, t: Ledger.Time, k: nat, key: Key, i: nat)
    requires CloseKeys(f.removed + f.changed).Ok? && Entries(f.changed + f.newRefs, getSha).Ok?
    requires Ledger.StartsBefore(rows, t)
    requires k < |f.newRefs| && SplitRef(f.newRefs[k]) == Some(key)
    requires forall q :: q in f.removed + f.changed ==> SplitRef(q) != Some(key)
    requires i < |rows| && rows[i].key == key && Ledger.IsOpen(rows[i])
    ensures var r := Ledger.Update(rows, CloseKeys(f.removed + f.changed).value, Entries(f.changed + f.newRefs, getSha).value, t);
            Ledger.IsOpen(r[i]) && !Ledger.IsLatest(r, key, i)
  {
    var keys := CloseKeys(f.removed + f.changed).value;
    var entries := Entries(f.changed + f.newRefs, getSha).value;
    var j := |f.changed| + k;
    assert (f.changed + f.newRefs)[j] == f.newRefs[k];
    assert entries[j].0 == key;
    forall c | 0 <= c < |keys|
      ensures keys[c] != key
    {
      assert (f.removed + f.changed)[c] in f.removed + f.changed;
    }
    Ledger.ReopenWithoutCloseBreaks(rows, keys, entries, t, i, j);
  }

  lemma EntriesDistinct(refs: seq<string>, getSha: string -> Option<Sha>)
    requires Entries(refs, getSha).Ok?
    requires forall i, j :: 0 <= i < j < |refs| ==> refs[i] != refs[j]
    ensures Ledger.DistinctKeys(Entries(refs, getSha).value)
  {
    var entries := Entries(refs, getSha).value;
    forall i, j | 0 <= i < j < |entries|
      ensures entries[i].0 != entries[j].0
    {
      if entries[i].0 == entries[j].0 {
        SplitInjective(refs[i], refs[j]);
      }
    }
  }

  lemma ReopenedAreClosed(rows: seq<PyRow>, f: FetchRefs, getSha: string -> Option<Sha>)
    requires CloseKeys(f.removed + f.changed).Ok? && Entries(f.changed + f.newRefs, getSha).Ok?
    requires forall r :: r in f.newRefs && SplitRef(r).Some? && Ledger.HasOpen(rows, SplitRef(r).value) ==> r in f.removed
    ensures var entries := Entries(f.changed + f.newRefs, getSha).value;
      forall j :: 0 <= j < |entries| && Ledger.HasOpen(rows, entries[j].0) ==> entries[j].0 in CloseKeys(f.removed + f.changed).value
  {
    var refs := f.changed + f.newRefs;
    var closing := f.removed + f.changed;
    var keys := CloseKeys(closing).value;
    var entries := Entries(refs, getSha).value;
    forall j | 0 <= j < |entries| && Ledger.HasOpen(rows, entries[j].0)
      ensures entries[j].0 in keys
    {
      var c := ClosingIndex(f, refs[j], j, rows);
      assert keys[c] == entries[j].0;
    }
  }

  lemma ClosingIndex(f: FetchRefs, r: string, j: nat, rows: seq<PyRow>) returns (c: nat)
    requires j < |f.changed + f.newRefs| && r == (f.changed + f.newRefs)[j]
    requires j >= |f.changed| ==> r in f.removed
    ensures c < |f.removed + f.changed| && (f.removed + f.changed)[c] == r
  {
    if j < |f.changed| {
      c := |f.removed| + j;
    } else {
      var k :| 0 <= k < |f.removed| && f.removed[k] == r;
      c := k;
    }
  }

  /** Distinct refs that both split have distinct keys. */
  lemma SplitInjective(a: string, b: string)
    requires SplitRef(a).Some? && SplitRef(a) == SplitRef(b)
    ensures a == b
  {
  }
}

=== FILE: ref_names.dfy ===
/**
 * Ref names as the two implementations handle them.
 *
 * The Python ledger keys a remote-tracking ref such as `origin/feature/x`
 * by the pair (remote, name) obtained by splitting at the first `/`
 * (doublegit.py:117,129). The Rust implementation only accepts refs of
 * the `origin` remote and keeps the name after the first `/`, together
 * with a flag telling tags apart (src/git/mod.rs:12-38).
 */
module RefNames {
  import opened Wrappers
  import FetchGrammar

  /** The remote every mirrored branch comes from. */
  const Origin: string := "origin"

  /**
   * Python's `ref.split('/', 1)` unpacked into two names: `None` stands for
   * the `ValueError` the unpacking raises when the ref holds no `/`.
   */
  function SplitRef(r: string): (res: Option<(string, string)>)
    ensures res.None? <==> '/' !in r
    ensures res.Some? ==> '/' !in res.value.0 && res.value.0 + "/" + res.value.1 == r
  {
    var i := FetchGrammar.IndexOf(r, '/');
    if i == |r| then None
    else
      assert r == r[..i] + "/" + r[i + 1..];
      Some((r[..i], r[i + 1..]))
  }

  /** Splitting is the inverse of joining with `/` when the remote holds no `/`. */
  lemma SplitJoin(remote: string, name: string)
    requires '/' !in remote
    ensures SplitRef(remote + "/" + name) == Some((remote, name))
  {
    var r := remote + "/" + name;
    FetchGrammar.IndexOfAfter(remote, '/', name);
    assert r[..|remote|] == remote;
    assert r[|remote| + 1..] == name;
  }

  /** A branch or tag of the mirrored remote (src/git/mod.rs:12-17). */
  datatype Ref = Ref(name: string, tag: bool)

  /** The two errors `parse_remote_ref` reports (src/git/mod.rs:22,25). */
  datatype RefError = InvalidRemoteRef | InvalidRemote

  /** A ref starts with `origin/` exactly when its first `/` ends the remote `origin`. */
  lemma OriginPrefix(s: string)
    ensures (|s| > |Origin| && s[..|Origin| + 1] == Origin + "/")
        <==> (SplitRef(s).Some? && SplitRef(s).value.0 == Origin)
  {
    if |s| > |Origin| && s[..|Origin| + 1] == Origin + "/" {
      assert s == Origin + "/" + s[|Origin| + 1..];
      SplitJoin(Origin, s[|Origin| + 1..]);
    }
    if SplitRef(s).Some? && SplitRef(s).value.0 == Origin {
      assert s[..|Origin| + 1] == Origin + "/";
    }
  }

  /**
   * `Ref::parse_remote_ref`: the text up to the first `/` must be `origin`,
   * and the rest, slashes included, is the branch name.
   */
  function ParseRemoteRef(s: string): (r: Result<Ref, RefError>)
    ensures r.Ok? <==> |s| > |Origin| && s[..|Origin| + 1] == Origin + "/"
    ensures r.Ok? ==> r.value == Ref(s[|Origin| + 1..], false)
    ensures r == Err(InvalidRemoteRef) <==> '/' !in s
  {
    OriginPrefix(s);
    match SplitRef(s)
    case None => Err(InvalidRemoteRef)
    case Some((remote, name)) =>
      if remote != Origin then Err(InvalidRemote)
      else
        assert s == Origin + "/" + name;
        assert s[|Origin| + 1..] == name;
        Ok(Ref(name, false))
  }

  /** `Ref::fullname`: the name `git rev-parse` resolves for the ref. */
  function FullName(r: Ref): (s: string)
    ensures r.tag ==> s == r.name
    ensures !r.tag ==> SplitRef(s) == Some((Origin, r.name))
  {
    if r.tag then r.name
    else
      SplitJoin(Origin, r.name);
      Origin + "/" + r.name
  }

  /** A branch ref survives printing and parsing back. */
  lemma ParseFullName(r: Ref)
    requires !r.tag
    ensures ParseRemoteRef(FullName(r)) == Ok(r)
  {
  }

  /** Whatever parses prints back to the text it was parsed from. */
  lemma FullNameOfParsed(s: string)
    requires ParseRemoteRef(s).Ok?
    ensures !ParseRemoteRef(s).value.tag
    ensures FullName(ParseRemoteRef(s).value) == s
  {
    var n := ParseRemoteRef(s).value.name;
    assert s == s[..|Origin| + 1] + s[|Origin| + 1..];
    assert FullName(Ref(n, false)) == Origin + "/" + n;
  }

  /** The Python key and the Rust name of an `origin` branch agree. */
  lemma KeysAgree(s: string)
    requires ParseRemoteRef(s).Ok?
    ensures SplitRef(s) == Some((Origin, ParseRemoteRef(s).value.name))
  {
    FullNameOfParsed(s);
  }

  /** The cases of `test_ref_parse` (src/git/mod.rs:148-157), and a name holding `/`. */
  lemma ParseOriginMaster()
    ensures ParseRemoteRef("origin/master") == Ok(Ref("master", false))
  {
    ParseFullName(Ref("master", false));
    assert FullName(Ref("master", false)) == "origin/master";
  }

  lemma ParseUpstreamMaster()
    ensures ParseRemoteRef("upstream/master") == Err(InvalidRemote)
  {
    SplitJoin("upstream", "master");
  }

  lemma ParseMaster()
    ensures ParseRemoteRef("master") == Err(InvalidRemoteRef)
  {
  }

  lemma ParseNestedName()
    ensures ParseRemoteRef("origin/feature/x") == Ok(Ref("feature/x", false))
  {
    ParseFullName(Ref("feature/x", false));
    assert FullName(Ref("feature/x", false)) == "origin/feature/x";
  }

  /** The cases of `test_ref_fullname` (src/git/mod.rs:160-178). */
  lemma FullNameExamples()
    ensures FullName(Ref("master", false)) == "origin/master"
    ensures FullName(Ref("release", true)) == "release"
  {
    SplitJoin(Origin, "master");
  }
}

=== FILE: rs_trace.dfy ===
/**
 * The end-to-end scenario of tests.py:81-135, run through the Rust cycle
 * (src/git/mod.rs:41-141).
 *
 * Branch `br1` is created at commit `A`, moved to its child `B`,
 * force-pushed back to `A`, then deleted while `br2` is created at `C`,
 * another child of `A`. The runs happen at times 1, 3, 4 and 6. After each
 * run the ledger and the anchor branches are the ones the scenario
 * expects. No ref is a tag, so no kept-tag ref appears.
 */
module RsTrace {
  import opened Wrappers
  import opened RefNames
  import Ledger
  import opened Anchors
  import opened RsUpdate

  const A: Sha := "ae79568054d9fa2e4956968310655e9bcbd60e2f"
  const B: Sha := "8dcda34bbae83d2e3d856cc5dbc356ee6e947619"
  const C: Sha := "54356c0e8c1cb663294d64157f517f980e5fbd98"

  /** The commit graph: `A` is the parent of both `B` and `C`. */
  const Le: Ancestry := (x: Sha, y: Sha) => x == y || (x == A && (y == B || y == C))

  lemma Distinct()
    ensures A != B && A != C && B != C
  {
    assert A[0] != B[0] && A[0] != C[0] && B[0] != C[0];
  }

  lemma LeIsPartialOrder()
    ensures PartialOrder(Le)
  {
    Distinct();
  }

  const Br1: Ref := Ref("br1", false)
  const Br2: Ref := Ref("br2", false)

  /** Nothing in the scenario is an annotated tag. */
  const NoTags: Sha -> bool := (s: Sha) => false

  /** `git rev-parse` in the mirror after each fetch. */
  const Sha1: string -> Option<Sha> := (s: string) => if s == FullName(Br1) then Some(A) else None
  const Sha2: string -> Option<Sha> := (s: string) => if s == FullName(Br1) then Some(B) else None
  const Sha4: string -> Option<Sha> := (s: string) => if s == FullName(Br2) then Some(C) else None

  /** What each fetch reports. */
  const Fetch1: RsFetch := RsFetch([Br1], [], [])
  const Fetch2: RsFetch := RsFetch([], [Br1], [])
  const Fetch4: RsFetch := RsFetch([Br2], [], [Br1])

  function R(name: string, from: Ledger.Time, to: Option<Ledger.Time>, sha: Sha): RsRow {
    Ledger.Row(name, from, to, (sha, false))
  }

  /** The mirror expected after each run (tests.py:89-94, 100-106, 111-118, 126-135). */
  const Mirror0: Mirror := Mirror([], {}, {})
  const Mirror1: Mirror := Mirror([R("br1", 1, None, A)], {A}, {})
  const Mirror2: Mirror := Mirror([R("br1", 1, Some(3), A), R("br1", 3, None, B)], {B}, {})
  const Mirror3: Mirror := Mirror([R("br1", 1, Some(3), A), R("br1", 3, Some(4), B), R("br1", 4, None, A)], {B}, {})
  const Mirror4: Mirror :=
    Mirror([R("br1", 1, Some(3), A), R("br1", 3, Some(4), B), R("br1", 4, Some(6), A), R("br2", 6, None, C)], {B, C}, {})

  /**
   * A run in which exactly one branch is changed or new, resolving to
   * `sha`: its anchor is created and pruned for, and its row opened.
   */
  lemma OneRefRun(m: Mirror, f: RsFetch, getSha: string -> Option<Sha>, annotatedTag: Sha -> bool, le: Ancestry,
                  t: Ledger.Time, r: Ref, sha: Sha, created: set<Sha>, pruned: set<Sha>)
    requires f.changed + f.newRefs == [r] && !r.tag
    requires getSha(FullName(r)) == Some(sha)
    requires m.branches + {sha} == created
    requires PruneRs(created, sha, false, le) == Ok(pruned)
    ensures Update(m, Some(f), getSha, annotatedTag, le, t)
         == Outcome(Mirror(Ledger.Update(m.ledger, Names(f.removed + f.changed), [(r.name, (sha, false))], t), pruned, m.kept), None)
  {
    var ins := [(r.name, (sha, false))];
    var got := Inserts([r], getSha);
    assert got.Ok? && |got.value| == 1 && got.value[0] == ins[0];
    assert got.value == ins;
    Staged(m, f, getSha, annotatedTag, le, t);
    var targets := [Target(sha, false)];
    assert Targets(ins, annotatedTag) == targets;
    var c := CreateRs(m.branches, m.kept, targets);
    assert c.0 == created;
    assert c.1 == m.kept;
    assert PruneRsAll(created, targets, le) == Pruned(pruned, None);
  }

  /** New branch `br1` at `A`. */
  lemma Run1()
    ensures Update(Mirror0, Some(Fetch1), Sha1, NoTags, Le, 1) == Outcome(Mirror1, None)
  {
    Prune1();
    OneRefRun(Mirror0, Fetch1, Sha1, NoTags, Le, 1, Br1, A, {A}, {A});
    assert Names(Fetch1.removed + Fetch1.changed) == [];
    Ledger1();
  }

  lemma Ledger1()
    ensures Ledger.Update(Mirror0.ledger, [], [("br1", (A, false))], 1) == Mirror1.ledger
  {
    var r := Ledger.Update(Mirror0.ledger, [], [("br1", (A, false))], 1);
    assert |r| == 1 && r[0] == Mirror1.ledger[0];
  }

  lemma Prune1()
    ensures PruneRs({A}, A, false, Le) == Ok({A})
  {
    assert PrunePy({A}, A, Le) == {A};
    assert Including({A}, A, Le) == {A};
  }

  /** `br1` moves to `B`: `keep-A` is merged into `keep-B` and goes. */
  lemma Run2()
    ensures Update(Mirror1, Some(Fetch2), Sha2, NoTags, Le, 3) == Outcome(Mirror2, None)
  {
    Prune2();
    OneRefRun(Mirror1, Fetch2, Sha2, NoTags, Le, 3, Br1, B, {A, B}, {B});
    assert Names(Fetch2.removed + Fetch2.changed) == ["br1"];
    Ledger2();
  }

  lemma Prune2()
    ensures PruneRs({A, B}, B, false, Le) == Ok({B})
  {
    Distinct();
    assert PrunePy({A, B}, B, Le) == {B};
    assert Including({B}, B, Le) == {B};
  }

  lemma Ledger2()
    ensures Ledger.Update(Mirror1.ledger, ["br1"], [("br1", (B, false))], 3) == Mirror2.ledger
  {
    LedgerRun(Mirror1.ledger, "br1", [("br1", (B, false))], 3, Mirror2.ledger);
  }

  /** `br1` is forced back to `A`: `keep-B` contains `A`, so `keep-A` goes again. */
  lemma Run3()
    ensures Update(Mirror2, Some(Fetch2), Sha1, NoTags, Le, 4) == Outcome(Mirror3, None)
  {
    Prune3();
    OneRefRun(Mirror2, Fetch2, Sha1, NoTags, Le, 4, Br1, A, {A, B}, {B});
    assert Names(Fetch2.removed + Fetch2.changed) == ["br1"];
    Ledger3();
  }

  lemma Prune3()
    ensures PruneRs({A, B}, A, false, Le) == Ok({B})
  {
    Distinct();
    assert PrunePy({A, B}, A, Le) == {A, B};
    assert Including({A, B}, A, Le) == {A, B};
    assert |{A, B}| == 2;
    assert {A, B} - {A} == {B};
  }

  lemma Ledger3()
    ensures Ledger.Update(Mirror2.ledger, ["br1"], [("br1", (A, false))], 4) == Mirror3.ledger
  {
    LedgerRun(Mirror2.ledger, "br1", [("br1", (A, false))], 4, Mirror3.ledger);
  }

  /** `br1` is deleted and `br2` appears at `C`; `keep-B` and `keep-C` are unrelated. */
  lemma Run4()
    ensures Update(Mirror3, Some(Fetch4), Sha4, NoTags, Le, 6) == Outcome(Mirror4, None)
  {
    Prune4();
    OneRefRun(Mirror3, Fetch4, Sha4, NoTags, Le, 6, Br2, C, {B, C}, {B, C});
    assert Names(Fetch4.removed + Fetch4.changed) == ["br1"];
    Ledger4();
  }

  lemma Prune4()
    ensures PruneRs({B, C}, C, false, Le) == Ok({B, C})
  {
    Distinct();
    assert PrunePy({B, C}, C, Le) == {B, C};
    assert Including({B, C}, C, Le) == {C};
  }

  lemma Ledger4()
    ensures Ledger.Update(Mirror3.ledger, ["br1"], [("br2", (C, false))], 6) == Mirror4.ledger
  {
    LedgerRun(Mirror3.ledger, "br1", [("br2", (C, false))], 6, Mirror4.ledger);
  }

  /**
   * One ledger update closing `k` and opening `ins`, checked row by row:
   * the last row of `k` gets `to := t`, and the new rows follow.
   */
  lemma LedgerRun(rows: seq<RsRow>, k: string, ins: seq<(string, (Sha, bool))>, t: Ledger.Time, expected: seq<RsRow>)
    requires |rows| > 0 && rows[|rows| - 1].key == k && forall i :: 0 <= i < |rows| - 1 ==> rows[i].from < rows[|rows| - 1].from
    requires forall i :: 0 <= i < |rows| - 1 ==> rows[i].to.Some?
    requires |expected| == |rows| + |ins|
    requires forall i :: 0 <= i < |rows| - 1 ==> expected[i] == rows[i]
    requires expected[|rows| - 1] == rows[|rows| - 1].(to := Some(t))
    requires forall j :: 0 <= j < |ins| ==> expected[|rows| + j] == Ledger.Row(ins[j].0, t, None, ins[j].1)
    ensures Ledger.Update(rows, [k], ins, t) == expected
  {
    var n := |rows| - 1;
    assert Ledger.IsLatest(rows, k, n);
    Ledger.LatestIs(rows, k, n);
    var r := Ledger.Update(rows, [k], ins, t);
    forall i | 0 <= i < |r|
      ensures r[i] == expected[i]
    {
      if i < |rows| {
        assert r[..|rows|][i] == r[i];
        if rows[i].key == k && i < n {
          assert Ledger.Latest(rows, k) != Some(i);
        }
      }
    }
  }

  /**
   * The whole scenario: the four runs, each from the mirror the previous
   * one left, end in the expected mirror.
   */
  lemma Scenario()
    ensures var o1 := Update(Mirror0, Some(Fetch1), Sha1, NoTags, Le, 1);
            var o2 := Update(o1.mirror, Some(Fetch2), Sha2, NoTags, Le, 3);
            var o3 := Update(o2.mirror, Some(Fetch2), Sha1, NoTags, Le, 4);
            var o4 := Update(o3.mirror, Some(Fetch4), Sha4, NoTags, Le, 6);
            && o1 == Outcome(Mirror1, None) && o2 == Outcome(Mirror2, None)
            && o3 == Outcome(Mirror3, None) && o4 == Outcome(Mirror4, None)
  {
    Run1();
    Run2();
    Run3();
    Run4();
  }

  /**
   * Python's pruning rule keeps `keep-A` after the force-push back: `keep-A`
   * is the target's own keeper, and nothing is merged into `A`.
   */
  lemma PythonKeepsBothAfterForcePush()
    ensures AnchorsPy({B}, [A], Le) == {A, B}
  {
    Distinct();
    assert CreateAll({B}, [A]) == {A, B};
    assert PrunePy({A, B}, A, Le) == {A, B};
  }
}

=== FILE: rs_update.dfy ===
/**
 * One run of Rust's `update_with_date` (src/git/mod.rs:41-141) on a
 * mirror, with the date as a parameter.
 *
 * The ledger changes happen inside a transaction that is committed only at
 * the end (src/git/mod.rs:71,138): any error drops them. The anchor
 * branches and kept-tag refs are git refs written as the run goes, so an
 * error during pruning leaves them as they were at that point.
 *
 * `git::fetch` is given as its result (`None` when it fails), `git
 * rev-parse` as `getSha`, `git::is_annotated_tag` as `annotatedTag`, and
 * ancestry as `le`; src/git/git.rs, which runs those commands, is not part
 * of this model.
 */
module RsUpdate {
  import opened Wrappers
  import opened RefNames
  import Ledger
  import opened Anchors

  /** A ledger row: keyed by name, holding the sha and the tag flag (src/git/mod.rs:58-64). */
  type RsRow = Ledger.Row<string, (Sha, bool)>

  /** The refs `git::fetch` reports. */
  datatype RsFetch = RsFetch(newRefs: seq<Ref>, changed: seq<Ref>, removed: seq<Ref>)

  /** The ledger, the `keep-<sha>` branches and the `refs/kept-tags/tag-<sha>` refs. */
  datatype Mirror = Mirror(ledger: seq<RsRow>, branches: set<Sha>, kept: set<Sha>)

  datatype RsError =
    | FetchFailed
    | RevParseFailed(ref: string)
    | BranchNotFound(sha: Sha)

  function Names(refs: seq<Ref>): (r: seq<string>)
    ensures |r| == |refs| && forall i :: 0 <= i < |refs| ==> r[i] == refs[i].name
  {
    seq(|refs|, i requires 0 <= i < |refs| => refs[i].name)
  }

  /** The sha `git rev-parse` gives for a ref's full name. */
  function ShaOf(r: Ref, getSha: string -> Option<Sha>): Option<Sha> {
    getSha(FullName(r))
  }

  /** The rows the inserting loop adds, failing at the first ref `git rev-parse` cannot resolve. */
  function Inserts(refs: seq<Ref>, getSha: string -> Option<Sha>): (r: Result<seq<(string, (Sha, bool))>, RsError>)
    ensures r.Ok? <==> forall i :: 0 <= i < |refs| ==> ShaOf(refs[i], getSha).Some?
    ensures r.Ok? ==> |r.value| == |refs| && forall i :: 0 <= i < |refs| ==>
      r.value[i] == (refs[i].name, (ShaOf(refs[i], getSha).value, refs[i].tag))
    ensures r.Err? ==> exists i :: 0 <= i < |refs| && ShaOf(refs[i], getSha).None? && r.error == RevParseFailed(FullName(refs[i]))
                                && forall j :: 0 <= j < i ==> ShaOf(refs[j], getSha).Some?
  {
    var i := FirstFailure(refs, (r: Ref) => ShaOf(r, getSha).Some?);
    if i < |refs| then Err(RevParseFailed(FullName(refs[i])))
    else Ok(seq(|refs|, j requires 0 <= j < |refs| => (refs[j].name, (ShaOf(refs[j], getSha).value, refs[j].tag))))
  }

  /** The anchor of each inserted ref: its sha, and whether it is a tag whose sha is an annotated tag. */
  function Targets(ins: seq<(string, (Sha, bool))>, annotatedTag: Sha -> bool): (ts: seq<Target>)
    ensures |ts| == |ins|
    ensures forall i :: 0 <= i < |ins| ==> ts[i].sha == ins[i].1.0
    ensures forall i :: 0 <= i < |ins| ==> (ts[i].annotated <==> ins[i].1.1 && annotatedTag(ins[i].1.0))
  {
    seq(|ins|, i requires 0 <= i < |ins| => Target(ins[i].1.0, ins[i].1.1 && annotatedTag(ins[i].1.0)))
  }

  /**
   * The creation loop (src/git/mod.rs:103-116): an annotated tag gets a
   * kept-tag ref, everything else a `keep-<sha>` branch.
   */
  function CreateRs(b: set<Sha>, kept: set<Sha>, targets: seq<Target>): (r: (set<Sha>, set<Sha>))
    ensures forall x :: x in r.0 <==> x in b || exists i :: 0 <= i < |targets| && targets[i] == Target(x, false)
    ensures forall x :: x in r.1 <==> x in kept || exists i :: 0 <= i < |targets| && targets[i] == Target(x, true)
    decreases |targets|
  {
    if |targets| == 0 then (b, kept)
    else
      var t := targets[0];
      var r := if t.annotated then CreateRs(b, kept + {t.sha}, targets[1..])
               else CreateRs(b + {t.sha}, kept, targets[1..]);
      assert forall i :: 0 <= i < |targets| - 1 ==> targets[1..][i] == targets[i + 1];
      assert forall x :: (exists i :: 0 <= i < |targets| && targets[i] == Target(x, false))
                     <==> t == Target(x, false) || exists i :: 0 <= i < |targets| - 1 && targets[1..][i] == Target(x, false) by {
        forall x | exists i :: 0 <= i < |targets| && targets[i] == Target(x, false)
          ensures t == Target(x, false) || exists i :: 0 <= i < |targets| - 1 && targets[1..][i] == Target(x, false)
        {
          var i :| 0 <= i < |targets| && targets[i] == Target(x, false);
          if i > 0 { assert targets[1..][i - 1] == Target(x, false); }
        }
      }
      assert forall x :: (exists i :: 0 <= i < |targets| && targets[i] == Target(x, true))
                     <==> t == Target(x, true) || exists i :: 0 <= i < |targets| - 1 && targets[1..][i] == Target(x, true) by {
        forall x | exists i :: 0 <= i < |targets| && targets[i] == Target(x, true)
          ensures t == Target(x, true) || exists i :: 0 <= i < |targets| - 1 && targets[1..][i] == Target(x, true)
        {
          var i :| 0 <= i < |targets| && targets[i] == Target(x, true);
          if i > 0 { assert targets[1..][i - 1] == Target(x, true); }
        }
      }
      r
  }

  /** The mirror after a run, and the error it returned if any. */
  datatype Outcome = Outcome(mirror: Mirror, error: Option<RsError>)

  /** `update_with_date(repository, date)`. */
  function Update(m: Mirror, fetched: Option<RsFetch>, getSha: string -> Option<Sha>, annotatedTag: Sha -> bool,
                  le: Ancestry, t: Ledger.Time): (o: Outcome)
    ensures o.error.Some? ==> o.mirror.ledger == m.ledger
    ensures m.kept <= o.mirror.kept
    ensures o.error == Some(FetchFailed) <==> fetched.None?
  {
    match fetched
    case None => Outcome(m, Some(FetchFailed))
    case Some(f) =>
      match Inserts(f.changed + f.newRefs, getSha)
      case Err(e) => Outcome(m, Some(e))
      case Ok(ins) => Apply(m, f, ins, annotatedTag, le, t)
  }

  /** The part of a run after every ref has resolved to the rows `ins`. */
  function Apply(m: Mirror, f: RsFetch, ins: seq<(string, (Sha, bool))>, annotatedTag: Sha -> bool,
                 le: Ancestry, t: Ledger.Time): (o: Outcome)
    ensures o.error.Some? ==> o.mirror.ledger == m.ledger && o.error.value.BranchNotFound?
    ensures m.kept <= o.mirror.kept
  {
    var targets := Targets(ins, annotatedTag);
    var created := CreateRs(m.branches, m.kept, targets);
    var p := PruneRsAll(created.0, targets, le);
    match p.failed
    case Some(s) => Outcome(Mirror(m.ledger, p.branches, created.1), Some(RsError.BranchNotFound(s)))
    case None => Outcome(Mirror(Ledger.Update(m.ledger, Names(f.removed + f.changed), ins, t), p.branches, created.1), None)
  }

  /**
   * Proof step only: unfolds `Update`, for a run whose refs all resolve,
   * to `Apply` of the resolved rows. It states no property of its own.
   */
  lemma Staged(m: Mirror, f: RsFetch, getSha: string -> Option<Sha>, annotatedTag: Sha -> bool, le: Ancestry, t: Ledger.Time)
    requires Inserts(f.changed + f.newRefs, getSha).Ok?
    ensures Update(m, Some(f), getSha, annotatedTag, le, t) == Apply(m, f, Inserts(f.changed + f.newRefs, getSha).value, annotatedTag, le, t)
  {
  }

  /** A run with an unresolvable ref stops before writing anything. */
  lemma RevParseAborts(m: Mirror, f: RsFetch, getSha: string -> Option<Sha>, annotatedTag: Sha -> bool, le: Ancestry, t: Ledger.Time)
    requires Inserts(f.changed + f.newRefs, getSha).Err?
    ensures Update(m, Some(f), getSha, annotatedTag, le, t) == Outcome(m, Some(Inserts(f.changed + f.newRefs, getSha).error))
  {
  }

  /**
   * The ledger after a successful run: every row keeps its name, start,
   * sha and tag flag; rows of names that were neither removed nor changed
   * are untouched, whatever their tag flag; and one open row starting at
   * `t` is appended per changed or new ref, in order.
   */
  lemma UpdateLedger(m: Mirror, f: RsFetch, getSha: string -> Option<Sha>, annotatedTag: Sha -> bool, le: Ancestry, t: Ledger.Time)
    requires Update(m, Some(f), getSha, annotatedTag, le, t).error.None?
    ensures var refs := f.changed + f.newRefs;
            var rows := Update(m, Some(f), getSha, annotatedTag, le, t).mirror.ledger;
            && |rows| == |m.ledger| + |refs|
            && Ledger.SameShape(m.ledger, rows[..|m.ledger|])
            && (forall i :: 0 <= i < |m.ledger| && (forall r :: r in f.removed + f.changed ==> r.name != m.ledger[i].key)
                  ==> rows[i] == m.ledger[i])
            && (forall j :: 0 <= j < |refs| ==>
                  rows[|m.ledger| + j] == Ledger.Row(refs[j].name, t, None, (ShaOf(refs[j], getSha).value, refs[j].tag)))
  {
    Staged(m, f, getSha, annotatedTag, le, t);
    var closing := f.removed + f.changed;
    var names := Names(closing);
    forall i | 0 <= i < |m.ledger| && (forall r :: r in closing ==> r.name != m.ledger[i].key)
      ensures m.ledger[i].key !in names
    {
      forall c | 0 <= c < |names|
        ensures names[c] != m.ledger[i].key
      {
        NameOf(closing, c);
      }
    }
  }

  lemma NameOf(refs: seq<Ref>, j: nat)
    requires j < |refs|
    ensures refs[j] in refs && Names(refs)[j] == refs[j].name
  {
  }

  /**
   * Retention safety of a run: once every changed or new ref has resolved,
   * each of their commits is kept reachable by an anchor branch or a
   * kept-tag ref, even when pruning stops at a missing keeper; annotated
   * tags are held by kept-tag refs.
   */
  lemma UpdateRetains(m: Mirror, f: RsFetch, getSha: string -> Option<Sha>, annotatedTag: Sha -> bool, le: Ancestry, t: Ledger.Time)
    requires PartialOrder(le)
    requires Inserts(f.changed + f.newRefs, getSha).Ok?
    ensures var refs := f.changed + f.newRefs;
            var o := Update(m, Some(f), getSha, annotatedTag, le, t);
            && (forall j :: 0 <= j < |refs| ==> Covers(o.mirror.branches + o.mirror.kept, ShaOf(refs[j], getSha).value, le))
            && (forall j :: 0 <= j < |refs| && refs[j].tag && annotatedTag(ShaOf(refs[j], getSha).value) ==>
                  ShaOf(refs[j], getSha).value in o.mirror.kept)
  {
    Staged(m, f, getSha, annotatedTag, le, t);
    var ins := Inserts(f.changed + f.newRefs, getSha).value;
    ApplyRetains(m, f, ins, annotatedTag, le, t);
  }

  lemma ApplyRetains(m: Mirror, f: RsFetch, ins: seq<(string, (Sha, bool))>, annotatedTag: Sha -> bool, le: Ancestry, t: Ledger.Time)
    requires PartialOrder(le)
    ensures var o := Apply(m, f, ins, annotatedTag, le, t);
            && (forall j :: 0 <= j < |ins| ==> Covers(o.mirror.branches + o.mirror.kept, ins[j].1.0, le))
            && (forall j :: 0 <= j < |ins| && ins[j].1.1 && annotatedTag(ins[j].1.0) ==> ins[j].1.0 in o.mirror.kept)
  {
    var targets := Targets(ins, annotatedTag);
    var created := CreateRs(m.branches, m.kept, targets);
    var all := seq(|targets|, i requires 0 <= i < |targets| => targets[i].sha);
    forall i | 0 <= i < |all|
      ensures Covers(created.0 + created.1, all[i], le)
    {
      assert targets[i] == Target(all[i], false) || targets[i] == Target(all[i], true);
      assert all[i] in created.0 + created.1;
    }
    forall i | 0 <= i < |targets|
      ensures targets[i].sha in all
    {
      assert all[i] == targets[i].sha;
    }
    PruneRsAllCovers(created.0, created.1, targets, all, le);
    forall j | 0 <= j < |ins| && ins[j].1.1 && annotatedTag(ins[j].1.0)
      ensures ins[j].1.0 in created.1
    {
      assert targets[j] == Target(ins[j].1.0, true);
    }
  }

  /**
   * The single-open invariant holds after a run when it held before, the
   * run is later than every row, no name is reported twice among the
   * changed and new refs, and a name reported new has no open row unless it
   * was also removed.
   */
  lemma UpdateKeepsSingleOpen(m: Mirror, f: RsFetch, getSha: string -> Option<Sha>, annotatedTag: Sha -> bool, le: Ancestry, t: Ledger.Time)
    requires Ledger.OpenIsLatest(m.ledger) && Ledger.StartsBefore(m.ledger, t)
    requires var refs := f.changed + f.newRefs; forall i, j :: 0 <= i < j < |refs| ==> refs[i].name != refs[j].name
    requires forall r :: r in f.newRefs && Ledger.HasOpen(m.ledger, r.name) ==> exists q :: q in f.removed && q.name == r.name
    ensures Ledger.OpenIsLatest(Update(m, Some(f), getSha, annotatedTag, le, t).mirror.ledger)
  {
    var o := Update(m, Some(f), getSha, annotatedTag, le, t);
    if o.error.None? {
      Staged(m, f, getSha, annotatedTag, le, t);
      var refs := f.changed + f.newRefs;
      var ins := Inserts(refs, getSha).value;
      var names := Names(f.removed + f.changed);
      assert o.mirror.ledger == Ledger.Update(m.ledger, names, ins, t);
      forall j | 0 <= j < |ins| && Ledger.HasOpen(m.ledger, ins[j].0)
        ensures ins[j].0 in names
      {
        assert ins[j].0 == refs[j].name;
        if j >= |f.changed| {
          assert refs[j] in f.newRefs;
        }
        var c := ClosingIndex(f, j);
        NameOf(f.removed + f.changed, c);
      }
      assert Ledger.DistinctKeys(ins);
      Ledger.UpdateKeepsOpenIsLatest(m.ledger, names, ins, t);
    }
  }

  /**
   * Why `UpdateKeepsSingleOpen` needs distinct names: rows are keyed by
   * name alone, so a tag and a branch of the same name, both changed or
   * new in one run, open two rows for that name, and the first of them is
   * open but not latest.
   */
  lemma SameNameBreaks(m: Mirror, f: RsFetch, getSha: string -> Option<Sha>, annotatedTag: Sha -> bool, le: Ancestry,
                       t: Ledger.Time, a: nat, b: nat)
    requires Update(m, Some(f), getSha, annotatedTag, le, t).error.None?
    requires var refs := f.changed + f.newRefs; a < b < |refs| && refs[a].name == refs[b].name
    ensures var rows := Update(m, Some(f), getSha, annotatedTag, le, t).mirror.ledger;
            var n := |m.ledger| + b;
            n < |rows| && Ledger.IsOpen(rows[n]) && !Ledger.IsLatest(rows, rows[n].key, n)
  {
    UpdateLedger(m, f, getSha, annotatedTag, le, t);
    var rows := Update(m, Some(f), getSha, annotatedTag, le, t).mirror.ledger;
    assert rows[|m.ledger| + a].key == rows[|m.ledger| + b].key;
    assert rows[|m.ledger| + a].from == rows[|m.ledger| + b].from;
  }

  /**
   * Why `UpdateKeepsSingleOpen` needs its reopen hypothesis: a run that
   * reports a ref as new while its name still has an open row, and closes
   * no ref of that name, leaves the old row open but no longer latest.
   * This happens after a failed run: the fetch had already pruned the
   * remote-tracking ref and the ledger rolled back, so the removal is
   * never recorded, and the branch's return is reported as new.
   */
  lemma NewWhileOpenBreaks(m: Mirror, f: RsFetch, getSha: string -> Option<Sha>, annotatedTag: Sha -> bool, le: Ancestry,
                           t: Ledger.Time, k: nat, name: string, i: nat)
    requires Update(m, Some(f), getSha, annotatedTag, le, t).error.None?
    requires Ledger.StartsBefore(m.ledger, t)
    requires k < |f.newRefs| && f.newRefs[k].name == name && forall q :: q in f.removed + f.changed ==> q.name != name
    requires i < |m.ledger| && m.ledger[i].key == name && Ledger.IsOpen(m.ledger[i])
    ensures var rows := Update(m, Some(f), getSha, annotatedTag, le, t).mirror.ledger;
            Ledger.IsOpen(rows[i]) && !Ledger.IsLatest(rows, name, i)
  {
    Staged(m, f, getSha, annotatedTag, le, t);
    var ins := Inserts(f.changed + f.newRefs, getSha).value;
    assert Update(m, Some(f), getSha, annotatedTag, le, t).mirror.ledger
        == Ledger.Update(m.ledger, Names(f.removed + f.changed), ins, t);
    ReopenUnclosed(m.ledger, f, ins, t, k, name, i);
  }

  lemma ReopenUnclosed(rows: seq<RsRow>, f: RsFetch, ins: seq<(string, (Sha, bool))>, t: Ledger.Time, k: nat, name: string, i: nat)
    requires Ledger.StartsBefore(rows, t)
    requires |ins| == |f.changed + f.newRefs| && forall j :: 0 <= j < |ins| ==> ins[j].0 == (f.changed + f.newRefs)[j].name
    requires k < |f.newRefs| && f.newRefs[k].name == name && forall q :: q in f.removed + f.changed ==> q.name != name
    requires i < |rows| && rows[i].key == name && Ledger.IsOpen(rows[i])
    ensures var r := Ledger.Update(rows, Names(f.removed + f.changed), ins, t);
            Ledger.IsOpen(r[i]) && !Ledger.IsLatest(r, name, i)
  {
    var names := Names(f.removed + f.changed);
    var j := |f.changed| + k;
    assert (f.changed + f.newRefs)[j] == f.newRefs[k];
    forall c | 0 <= c < |names|
      ensures names[c] != name
    {
      NameOf(f.removed + f.changed, c);
    }
    Ledger.ReopenWithoutCloseBreaks(rows, names, ins, t, i, j);
  }

  lemma ClosingIndex(f: RsFetch, j: nat) returns (c: nat)
    requires j < |f.changed + f.newRefs|
    requires j >= |f.changed| ==> exists q :: q in f.removed && q.name == (f.changed + f.newRefs)[j].name
    ensures c < |f.removed + f.changed| && (f.removed + f.changed)[c].name == (f.changed + f.newRefs)[j].name
  {
    if j < |f.changed| {
      c := |f.removed| + j;
    } else {
      var q :| q in f.removed && q.name == (f.changed + f.newRefs)[j].name;
      var k :| 0 <= k < |f.removed| && f.removed[k] == q;
      c := k;
    }
  }
}

=== FILE: wrappers.dfy ===
/** Failure-compatible Option and Result types shared by every module of the model. */
module Wrappers {

  datatype Option<+T> = None | Some(value: T) {
    predicate IsFailure() {
      None?
    }

    function PropagateFailure<U>(): Option<U>
      requires None?
    {
      None
    }

    function Extract(): T
      requires Some?
    {
      value
    }
  }

  /** `Ok` or `Err`, the shape of Rust's `Result` and of a Python call that may raise. */
  datatype Result<+T, +E> = Ok(value: T) | Err(error: E) {
    predicate IsFailure() {
      Err?
    }

    function PropagateFailure<U>(): Result<U, E>
      requires Err?
    {
      Err(error)
    }

    function Extract(): T
      requires Ok?
    {
      value
    }
  }

  /**
   * Where a loop that stops at the first element failing `ok` stops: the
   * index of that element, or `|xs|` when every element passes.
   */
  function FirstFailure<T>(xs: seq<T>, ok: T -> bool): (i: nat)
    ensures i <= |xs|
    ensures forall j :: 0 <= j < i ==> ok(xs[j])
    ensures i < |xs| ==> !ok(xs[i])
  {
    if |xs| == 0 || !ok(xs[0]) then 0
    else 1 + FirstFailure(xs[1..], ok)
  }
}
